=== FILE: README.md ===
# Market dashboard core in Dafny

A model of the decision logic behind a stock-market dashboard: the news
analyser that fetches articles for a ticker and labels each one's likely
impact, the sentiment analyser that filters relevant news, pools headline
polarities into one score per symbol and aggregates the symbols into a
market mood, the trend predictor's feature table and label rules, the alert
store, the holdings ledger and the portfolio analysis.

Modules, one per source file, over a few shared ones:

- `Wrappers`, `Numeric`, `Text`, `Sorting`, `Collections`: `Option`, sums and
  clamps, the Python string operations the scorers use (`lower`, `in`,
  `split`, `join`, `strip`), a stable descending sort on a lexicographic
  key (Python's `sort(reverse=True)`), and filtering.
- `NewsAnalyzer`: the lexicon classifier with its phrase table and
  tie-breaking, the summary, the remote completion path whose reply is an
  input, the article guard and the four-article fetch loop.
- `SentimentAnalyzer`: relevance (complete, at most a week old, two market
  keywords), the weighted pool of title and description polarities, the
  five-level trend table, the confidence formula, the top-three key
  insights and the market mood.
- `Predictions`: rolling means, spread and momentum, the dropping of
  incomplete rows, the 30-row minimum, the four-level label and the clamped
  confidence.
- `Alerts`: the threshold table, append-only alerts, the newest-first query
  with Python slice semantics, the price rule and the VIX rule.
- `Portfolio`: append, remove-all-rows-of-a-symbol, valuation at given
  prices, the diversification and sector-risk scores.
- `Analysis`: the event impact score, the sector exposure over the stored
  `Current Value` column (absent, valued, or with NaN cells) and the risk
  report.

Everything external is an input: the news search response, the completion
service's reply to a prompt, TextBlob polarity, the rolling standard
deviation, the fitted scaler and regression, `log10`, the closes of a
symbol, the market indicators and the current time (whole seconds).

Where descriptions of the system and the code differ, the model follows the
code: the mood is divided by `total_confidence * count` rather than by the
sum of its weights (see Findings); the remote classifier's label is the
binary "Positive"/"Negative" substring test, not one of five labels; a
symbol's confidence ranges up to 200, not 100.

## Model

| member | source | states |
|---|---|---|
| `NewsAnalyzer.ScoreText` | news_analyzer.py:119-126 | Each tier counts each of its phrases at most once, so its count never exceeds the length of its phrase list. |
| `NewsAnalyzer.BestTier` | news_analyzer.py:133 | The chosen tier has the largest count, and every tier listed before it in the table has a strictly smaller count (Python's `max` keeps the first maximum). |
| `NewsAnalyzer.AllZeroIffNoPhrase` | news_analyzer.py:119-131 | All four counts are zero exactly when no phrase of the table occurs in the text. |
| `NewsAnalyzer.LexiconLabel` | news_analyzer.py:128-134 | The label is one of the five lexicon labels; "Ambivalent" exactly when no phrase occurs; otherwise a tier with a maximal count, the earliest one on a tie. |
| `NewsAnalyzer.SimpleAnalysisReadsText` | news_analyzer.py:96-144 | The fallback record reads the lower-cased `title. description`: "Ambivalent" exactly when no phrase occurs, otherwise a tier with the most occurring phrases, with the summary and the explanation for that label. |
| `NewsAnalyzer.SummaryShape` | news_analyzer.py:100-109 | The summary is the title's text before its first dot, then ". " and the stripped text between the description's first and second dots when the description has a dot at all. |
| `NewsAnalyzer.LexiconAlwaysLabelled` | news_analyzer.py:94-153 | Both the normal record and the exception handler's record carry one of the five lexicon labels. |
| `NewsAnalyzer.RemoteImpact` | news_analyzer.py:84 | The remote path only ever labels an article "Positive" or "Negative". |
| `NewsAnalyzer.RemoteImpactPositiveIff` | news_analyzer.py:84 | The remote label is "Positive" exactly when "increase" or "growth" occurs at some position of the lower-cased reply. |
| `NewsAnalyzer.AnalyzeArticle` | news_analyzer.py:66-69 | There is no record exactly when the title or the description is missing or empty. |
| `NewsAnalyzer.AnalyzeArticleRemote` | news_analyzer.py:72-86 | A non-empty reply can only come with a configured key, and the record is then the title as summary, the reply as significance and the reply's binary label. |
| `NewsAnalyzer.AnalyzeArticleFallback` | news_analyzer.py:79-92 | Without a key or without a usable reply the record is the lexicon classifier's, carrying a lexicon label. |
| `NewsAnalyzer.SearchQuery` | news_analyzer.py:161-162 | The query always ends with the market-context clause. |
| `NewsAnalyzer.SearchQueryMentions` | news_analyzer.py:161-162 | The query contains the symbol, and the company name when one is given. |
| `NewsAnalyzer.FetchRelevantNews` | news_analyzer.py:175-216 | At most four records come back, never more than there were articles; a failed request, a non-200 status and an empty article list all give the empty list. |
| `NewsAnalyzer.FetchIgnoresBeyondFourth` | news_analyzer.py:190 | Articles after the fourth never change the result. |
| `NewsAnalyzer.FetchConcatenates` | news_analyzer.py:189-204 | Within the first four, records come out in article order: the records of `a + b` are those of `a` followed by those of `b`. |
| `NewsAnalyzer.FetchSingle` | news_analyzer.py:189-204 | A single article yields its own record, or nothing when it is skipped. |
| `NewsAnalyzer.ProcessOneKeeps` | news_analyzer.py:192-200 | An article with a title, a description and both the `url` and `publishedAt` keys is never skipped and keeps its title; a `null` url or date is kept as `None`. |
| `NewsAnalyzer.ProcessOneMissingKey` | news_analyzer.py:192-203 | An article without the `url` or the `publishedAt` key is skipped, because the subscript raises inside the per-article handler. |
| `NewsAnalyzer.CompleteArticleKept` | news_analyzer.py:189-204 | Any such article among the first four appears in the fetched list. |
| `Text.ContainsIff` | news_analyzer.py:125 | The substring test holds exactly when the needle occurs at some position. |
| `Text.SplitJoin` | news_analyzer.py:103-109 | Splitting a join of separator-free pieces gives the pieces back. |
| `Text.Strip` | news_analyzer.py:107 | The stripped text is a slice of the input with only whitespace removed at both ends, and neither starts nor ends with whitespace. |
| `Text.StripIdempotent` | news_analyzer.py:107 | Stripping twice is stripping once. |
| `Text.CountMatchesIsCardinality` | sentiment_analyzer.py:35-37 | The keyword count is the number of distinct list entries that occur in the text. |
| `SentimentAnalyzer.Relevant` | sentiment_analyzer.py:67-73 | The filter keeps exactly the relevant articles: every article kept is relevant and comes from the input, and every relevant input article is kept. |
| `SentimentAnalyzer.RelevantIffTwoKeywords` | sentiment_analyzer.py:20-37 | An article is relevant exactly when it has a title, a description, a date at most a week old, and at least two distinct market keywords occur in its text. |
| `SentimentAnalyzer.StaleIsIrrelevant` | sentiment_analyzer.py:22-32 | An article older than a week, or without a parseable date, is never relevant. |
| `SentimentAnalyzer.Fragments` | sentiment_analyzer.py:74-95 | Each relevant article adds exactly two entries to the pool, in article order: entry 2i is article i's title polarity with weight 1.5 + |polarity|, and entry 2i+1 is its description polarity with weight 1. |
| `SentimentAnalyzer.FragmentsWithin` | sentiment_analyzer.py:74-95 | Every pool entry has a score in [-1, 1] and a non-negative weight, and the weights add up to at least two per article. |
| `SentimentAnalyzer.WeightedMeanBetween` | sentiment_analyzer.py:105-107 | A weighted mean of scores in [lo, hi] with positive total weight lies in [lo, hi]. |
| `SentimentAnalyzer.TrendMonotone` | sentiment_analyzer.py:137-148 | A higher score never gives a more bearish direction. |
| `SentimentAnalyzer.TrendSymmetric` | sentiment_analyzer.py:137-148 | Negating the score mirrors the direction. |
| `SentimentAnalyzer.TrendBands` | sentiment_analyzer.py:137-148 | The bands of the table, with each boundary value (0.5, 0.2, -0.2, -0.5) on the stronger side. |
| `SentimentAnalyzer.ConfidenceMonotone` | sentiment_analyzer.py:117 | More relevant articles never lower the confidence. |
| `SentimentAnalyzer.ConfidenceSaturates` | sentiment_analyzer.py:117 | From ten articles on, the confidence depends only on the score. |
| `SentimentAnalyzer.ConfidenceRange` | sentiment_analyzer.py:117-123 | With a score in [-1, 1] the reported confidence lies in [0, 200], and is at least 10 once an article counts. |
| `SentimentAnalyzer.SignificantNews` | sentiment_analyzer.py:82-89 | At most one insight per relevant article, and every relevant article whose headline polarity exceeds 0.3 in magnitude yields its insight. |
| `SentimentAnalyzer.SignificantNewsWellFormed` | sentiment_analyzer.py:82-89 | Every insight carries its title's polarity, that polarity exceeds 0.3 in magnitude, and its strength is "High" exactly above 0.6. |
| `SentimentAnalyzer.TopInsights` | sentiment_analyzer.py:110-125 | At most three insights are kept. |
| `SentimentAnalyzer.TopInsightsSelect` | sentiment_analyzer.py:110-125 | The kept insights are drawn from the significant ones, newest first and strongest first within a minute, three of them when there are three, and none left out ranks above one kept. |
| `SentimentAnalyzer.AnalyzeMarketSentiment` | sentiment_analyzer.py:39-135 | The result is always a record for the requested symbol with at most three insights. |
| `SentimentAnalyzer.NeutralIffNothingRelevant` | sentiment_analyzer.py:57-103 | The neutral record comes back exactly when the request failed or no article is relevant, and the news count is the number of relevant articles. |
| `SentimentAnalyzer.ScoredShape` | sentiment_analyzer.py:105-128 | A scored record has a score in [-1, 1], the direction and impact of the trend table for that score, a confidence in [10, 200] and the relevant-article count. |
| `SentimentAnalyzer.KeyInsightsShape` | sentiment_analyzer.py:82-125 | The key insights of any result are well formed and in descending key order. |
| `SentimentAnalyzer.AnalyzedConfidence` | sentiment_analyzer.py:117-124 | A symbol with news reports a confidence of at least 10. |
| `SentimentAnalyzer.MoodNoneIff` | sentiment_analyzer.py:170-178 | There is no mood exactly when no symbol has any relevant news. |
| `SentimentAnalyzer.MoodCounts` | sentiment_analyzer.py:170-189 | When there is a mood, its news total counts every article of every symbol, it counts the symbols with news, and its average confidence is their total confidence divided by that count. |
| `SentimentAnalyzer.MoodScoreAsWritten` | sentiment_analyzer.py:180-183 | With positive divisors, the score as written is the weighted mean of the kept symbols times `w / d`, `w` being the sum of the weights `(c / 100) * n` and `d` being `total_confidence * count`. |
| `SentimentAnalyzer.MoodOfRescaled` | sentiment_analyzer.py:170-189 | Whenever there is a mood and both divisors are positive, the mood as written is the corrected mood times `w / d`, so the two agree only when the divisors do. |
| `SentimentAnalyzer.GetMarketMoodDivisor` | sentiment_analyzer.py:163-183 | On the analyser's own results the fallback divisor 1 is never used: the kept symbols' total confidence is positive. |
| `SentimentAnalyzer.MoodAsWrittenShrinks` | sentiment_analyzer.py:180-183 | One symbol with sentiment 0.5, confidence 100 and one article gets a mood of 0.005, where the weighted mean is 0.5. |
| `SentimentAnalyzer.NormalizedMoodBetween` | sentiment_analyzer.py:180-183 | When every symbol with news has positive confidence and a sentiment in [lo, hi], the corrected mood lies in [lo, hi]; symbols without news play no part. |
| `SentimentAnalyzer.NormalizedMoodSingle` | sentiment_analyzer.py:180-183 | With a single symbol of news the corrected mood is that symbol's sentiment. |
| `SentimentAnalyzer.CorrectedMoodAgrees` | sentiment_analyzer.py:177-191 | The corrected mood record exists exactly when the written one does, differs from it only in the score, and its score lies within the sentiment range of the symbols with news. |
| `Sorting.SortPermutes` | sentiment_analyzer.py:110-113 | Sorting rearranges its input without adding or losing elements. |
| `Sorting.SortSorted` | sentiment_analyzer.py:110-113 | The sorted sequence is in descending key order. |
| `Sorting.SortStable` | alerts.py:61 | Elements with equal keys keep their relative order. |
| `Sorting.TopSelection` | alerts.py:61 | Cutting the sorted list after `m` keeps elements of the input, in descending order, and no element left out ranks above one kept. |
| `Predictions.RollingMean` | predictions.py:18-19 | A rolling mean is present exactly from the row where its full window is available. |
| `Predictions.RollingSpread` | predictions.py:20 | The rolling spread is present exactly from the tenth row on. |
| `Predictions.Momentum` | predictions.py:21 | The momentum is present exactly from the sixth row on. |
| `Predictions.FeatureAtPresent` | predictions.py:18-24 | A row is complete exactly from index 19 on: the 20-close window binds. |
| `Predictions.CompleteLength` | predictions.py:24 | Dropping incomplete rows from the first `n` bars leaves `n - 19` rows, or none. |
| `Predictions.CompleteRowAt` | predictions.py:18-24 | Row `j` of the table holds the features of bar `j + 19` and that bar's close as target. |
| `Predictions.CompleteRows` | predictions.py:24 | Dropping incomplete rows leaves `n - 19` rows, row `j` being bar `j + 19` with its features and its close as target. |
| `Predictions.PrepareFeaturesIff` | predictions.py:12-34 | A history yields features exactly when it has at least 49 bars, and then one row per bar from the twentieth. |
| `Predictions.FeatureColumns` | predictions.py:18-21 | A complete row holds the mean of the last 5 and last 20 closes, the spread of the last 10, and the difference with the close five bars back. |
| `Predictions.FlatHistory` | predictions.py:18-21 | On a flat history both averages equal the price and the momentum is zero. |
| `Predictions.TrainIff` | predictions.py:39-54 | Training succeeds exactly when the history has at least 49 bars. |
| `Predictions.TrendForMonotone` | predictions.py:77-84 | A larger change never gets a more bearish label, and a change of exactly 0 is "Bearish". |
| `Predictions.TrendForBands` | predictions.py:77-84 | "Strong Bullish" exactly above 1, bullish exactly above 0, "Strong Bearish" exactly at or below -1. |
| `Predictions.PredictionConfidence` | predictions.py:86 | The confidence lies in [0, 1]. |
| `Predictions.PredictionConfidenceClamp` | predictions.py:86 | The confidence is 0 for any fall, 1 from a 5% rise on, and a fifth of the change in between. |
| `Predictions.PredictionConfidenceMonotone` | predictions.py:86 | A higher change never lowers the confidence. |
| `Predictions.PercentChangeSign` | predictions.py:74 | With a positive last close the change has the sign of the predicted move. |
| `Predictions.PredictTrend` | predictions.py:59-94 | A prediction's confidence lies in [0, 1] and its label is the table's label for its change. |
| `Predictions.PredictTrendIff` | predictions.py:62-74 | A prediction comes back exactly for a history of at least 49 bars with a fitted model and a non-zero last close, and it is the model's value on the last bar's features. |
| `Predictions.PredictNeedsTrainable` | predictions.py:39-67 | Whenever a prediction comes back, training on the same history succeeds. |
| `Alerts.NewStore` | alerts.py:5-11 | A new store has no alerts and the three default threshold keys. |
| `Alerts.SetThreshold` | alerts.py:13-16 | Only an existing key is updated; the alerts, the key set and every other threshold are unchanged, and an unknown key changes nothing. |
| `Alerts.AddAlert` | alerts.py:50-57 | The new alert is appended at the end; earlier alerts and the thresholds are unchanged. |
| `Alerts.UpdatesKeepValid` | alerts.py:13-57 | Neither update adds or removes a threshold key. |
| `Alerts.SliceCount` | alerts.py:61 | The slice never keeps more than there are, and a non-negative limit keeps the smaller of limit and count. |
| `Alerts.GetAlerts` | alerts.py:59-61 | The query returns as many alerts as the slice keeps. |
| `Alerts.GetAlertsNewest` | alerts.py:59-61 | The returned alerts come from the store, newest first, and none left out is newer than one returned. |
| `Alerts.GetAlertsKeepsOrderOfEquals` | alerts.py:61 | Alerts with the same timestamp come back in the order they were added. |
| `Alerts.PriceSignalIff` | alerts.py:25-29 | With a non-zero previous close an alert is raised exactly when the move exceeds the threshold times the previous close, in magnitude. |
| `Alerts.AlertsFor` | alerts.py:24-34 | A holding contributes at most one price alert, a price alert for that symbol stamped with the reading taken when it is added. |
| `Alerts.CheckPriceAlerts` | alerts.py:18-34 | Each holding's alert takes its own clock reading. The check keeps the thresholds and every earlier alert, and adds at most one alert per holding. |
| `Alerts.PriceAlertsInClockOrder` | alerts.py:18-57 | With a clock that never runs backwards, every alert of a check carries one of that check's readings, and the timestamps never decrease in ledger order. Combined with `GetAlertsNewest`, a later holding's alert with a newer reading comes back first. |
| `Alerts.CheckPriceAlertsAppends` | alerts.py:18-34 | When no holding has exactly one close, the check finishes and appends exactly the alerts of the holdings whose rule fires, in ledger order. |
| `Alerts.SingleCloseRaises` | alerts.py:18-34 | When holding k is the first with a single close, indexing the previous close fails and the error escapes the check. The alerts of holdings 0..k-1 stay, and no later holding is checked. |
| `Alerts.CheckMarketAlerts` | alerts.py:36-48 | The market check keeps the thresholds and earlier alerts and adds at most one alert. |
| `Alerts.CheckMarketAlertsIff` | alerts.py:40-48 | An alert is added exactly when the VIX is reported and strictly above 30, and it reports that VIX. |
| `Alerts.ChecksKeepValid` | alerts.py:18-48 | Both checks keep the threshold keys of a valid store. |
| `Portfolio.AddPosition` | portfolio.py:8-15 | One row is appended at the end and earlier rows are untouched. |
| `Portfolio.RemovePosition` | portfolio.py:17-19 | No remaining row has the removed symbol, and the ledger never grows. |
| `Portfolio.RemovePositionKeeps` | portfolio.py:17-19 | A row survives exactly when it was in the ledger under another symbol. |
| `Portfolio.RemoveAbsent` | portfolio.py:17-19 | Removing a symbol the ledger does not hold changes nothing. |
| `Portfolio.RemoveIdempotent` | portfolio.py:17-19 | Removing twice is removing once. |
| `Portfolio.RemoveAfterAdd` | portfolio.py:8-19 | Removing a symbol undoes adding it; removing another symbol commutes with the add. |
| `Portfolio.CurrentValues` | portfolio.py:26-36 | The value column has one entry per row, the price times the shares, or 0 without a price. |
| `Portfolio.PortfolioValue` | portfolio.py:21-37 | The valuation yields one value per row, the price times the shares or 0 without a price, and a total equal to the sum of that column. |
| `Portfolio.TotalIsSumOfColumn` | portfolio.py:21-37 | The loop's running total over the priced rows equals the sum of the value column. |
| `Portfolio.ValueAfterAdd` | portfolio.py:8-37 | Adding a row adds exactly its value to the total. |
| `Portfolio.PortfolioRisk` | portfolio.py:39-53 | There are no scores exactly for an empty ledger; otherwise the diversification lies in (0, 1] and the two scores add up to 1. |
| `Portfolio.DiversificationMonotone` | portfolio.py:44-48 | More rows never lower the diversification, and ten rows or more give 1 and a sector risk of 0. |
| `Portfolio.UpdatesReportFailure` | portfolio.py:8-19 | As written, every add appends a row and every remove drops the rows of a held symbol, yet both are always reported as failures. |
| `Portfolio.CheckedUpdatesReport` | portfolio.py:8-19 | With the corrected return values an add is always reported as done, and a remove exactly when the symbol was held. |
| `Analysis.EventWeight` | analysis.py:8-16 | Every event weighs between 0.5 and 0.8. |
| `Analysis.UnknownEventDefault` | analysis.py:8-16 | An event outside the table weighs 0.5, and an event weighs 0.5 exactly when it is outside the table or is "Unemployment Rate". |
| `Analysis.ImpactScore` | analysis.py:5-24 | The impact score never exceeds 1 and is 0 without holdings. |
| `Analysis.SingleHoldingScore` | analysis.py:23-24 | A single holding scores its event's base weight. |
| `Analysis.ImpactScoreMonotone` | analysis.py:23-24 | With a non-decreasing `log10`, more holdings never lower the score. |
| `Analysis.SectorExposure` | analysis.py:26-46 | Reading the stored `Current Value` column raises a `KeyError` exactly when no valuation has created it; otherwise the weights name at most the one sector. |
| `Analysis.ColumnAfterAdd` | portfolio.py:8-15 | Adding a position extends an existing column by one cell and keeps the earlier cells; without a column there is still none. |
| `Analysis.ColumnSumValued` | analysis.py:30 | The column sum of a valuation's column is the sum of its values. |
| `Analysis.ShareSumIsRatio` | analysis.py:35-44 | Over a valuation's column the accumulated shares equal the sum of the values over the total. |
| `Analysis.NaNAbsorbs` | analysis.py:35-44 | A NaN cell anywhere in the column makes the accumulated weight NaN. |
| `Analysis.SectorWeightsSumToOne` | analysis.py:26-46 | Over a valuation's column, the exposure is empty exactly when the values sum to 0; otherwise its single sector has weight 1. |
| `Analysis.ExposureAfterValuation` | analysis.py:26-46 | Right after `get_portfolio_value` the exposure is empty when the total is 0 and weight 1 otherwise. After one more `add_position` the total is unchanged, and a non-zero total gives the sector a NaN weight. |
| `Analysis.GenerateRiskReport` | analysis.py:48-63 | The report carries the ledger's risk scores and the "Hold" recommendation. |
| `Analysis.MarketTrendIff` | analysis.py:56-58 | The trend is bullish exactly when the S&P 500 level is reported and positive, and the volatility is 0 when the VIX is missing. |

## Left out

- HTTP requests, status codes and JSON decoding: the search response is an input that is a failed request, a non-200 status or the decoded article list.
- The completion service: its reply to a prompt is an input; timeouts, authentication and transport errors all read as no reply.
- TextBlob polarity, pandas' rolling standard deviation, the standard scaler and the linear regression: input functions, because they are library numerics.
- `np.log10`: an input function.
- Floating point: all arithmetic is on exact reals, and formatted numbers (`:.2%`, `:.2f`) are not produced; an alert message keeps the number it reports.
- Dates: times are whole seconds; the parsing of `%Y-%m-%dT%H:%M:%SZ`, the time-zone difference between the local clock and the UTC publish time, and sub-second precision of the clock are not modelled. Each added alert takes its own reading, passed in as `clock`.
- JSON `null` and a missing field both read as the empty string in the sentiment analyser's articles, and as `None` for the `title` and `description` the news analyser reads with `.get`; the news analyser's subscripted `url` and `publishedAt` keep the two apart.
- The 15-minute cache of the sentiment analyser: it is never read by the code.
- `timestamp` fields of results and the prediction date (`days_ahead`): clock readings only.
- The `volume_spike` and `volatility` thresholds: stored and updatable, but no rule reads them.
- Console logging and `traceback.print_exc()`.
- market_data.py and main.py are not part of this model beyond the inputs they provide; the dashboard's use of the update return values appears only in the Findings.
- `Text.Lower`: lowers only the ASCII letters, because Python's full Unicode case mapping is not modelled.
- `Predictions.PredictTrend`: a last close of 0 gives no prediction, where numpy's division would give an infinite or not-a-number change inside a record.
- `Analysis.SectorExposure`: the stored `Current Value` column is an input, given as absent, as a valuation's column, or as one extended by `add_position`. How `remove_position` carries the kept rows' stale values along is not tracked.
- `Predictions.PrepareFeatures`: takes a history without missing values, so `dropna` only drops the warm-up rows.

## Findings

| source | as written | input that shows it | evidently intended | confidence | as-written member | corrected member |
|---|---|---|---|---|---|---|
| sentiment_analyzer.py:180-183 | the mood's numerator `sum(s * (c / 100) * n)` is divided by `total_confidence * count`, so the mood is the weighted mean scaled by `sum((c / 100) * n) / (total_confidence * count)` on every input (`SentimentAnalyzer.MoodOfRescaled`) | one symbol with sentiment 0.5, confidence 100 and one article: the mood is 0.005 | the weighted mean, dividing by `sum((c / 100) * n)`, which gives 0.5 and always lies within the sentiment range of the symbols with news | high; not executed | `SentimentAnalyzer.MoodAsWrittenShrinks` | `SentimentAnalyzer.CorrectedMoodAgrees` |
| portfolio.py:8-19 | `add_position` and `remove_position` return `None`, while the dashboard shows success only for a truthy return value | adding any position, or removing a held symbol: the ledger changes but the update is reported as failed | return whether a row was added or removed | high; not executed | `Portfolio.UpdatesReportFailure` | `Portfolio.CheckedUpdatesReport` |

=== FILE: alerts.dfy ===
/**
 * The alert store: a threshold table whose keys are fixed at creation, an
 * append-only list of alerts, the "most recent first" query, and the two
 * rules that raise price and market alerts.
 *
 * Each alert's timestamp is a clock reading passed in, one per added
 * alert; the closes of a holding and the market indicators are inputs.
 * The message is kept as the number it reports rather than as formatted
 * text.
 */
module Alerts {
  import opened Wrappers
  import opened Numeric
  import opened Sorting

  datatype AlertKind = PriceAlert | MarketAlert

  /** What an alert reports. `PriceJump` is a move away from a previous close of 0. */
  datatype Message = PriceChanged(change: real) | PriceJump | HighVolatility(vix: real)

  datatype Alert = Alert(timestamp: int, symbol: string, message: Message, kind: AlertKind)

  datatype AlertStore = AlertStore(alerts: seq<Alert>, thresholds: map<string, real>)

  const PriceChangeKey := "price_change"

  /** The thresholds a new store starts with. */
  const DefaultThresholds: map<string, real> := map[
    PriceChangeKey := 0.05,
    "volume_spike" := 2.0,
    "volatility" := 0.15
  ]

  /** The VIX level above which a market alert is raised. */
  const VixLimit: real := 30.0

  const VixKey := "Volatility Index"

  /** A store whose threshold table has exactly the keys it started with. */
  ghost predicate Valid(s: AlertStore)
  {
    s.thresholds.Keys == DefaultThresholds.Keys
  }

  function NewStore(): (s: AlertStore)
    ensures Valid(s) && s.alerts == []
  {
    AlertStore([], DefaultThresholds)
  }

  /** `set_threshold`: only a key that already exists is updated. */
  function SetThreshold(s: AlertStore, kind: string, value: real): (r: AlertStore)
    ensures r.alerts == s.alerts
    ensures r.thresholds.Keys == s.thresholds.Keys
    ensures kind in s.thresholds ==> r.thresholds[kind] == value
    ensures forall k :: k in s.thresholds && k != kind ==> r.thresholds[k] == s.thresholds[k]
    ensures kind !in s.thresholds ==> r == s
  {
    if kind in s.thresholds then s.(thresholds := s.thresholds[kind := value]) else s
  }

  /** `add_alert`: one alert appended at the end, everything else as it was. */
  function AddAlert(s: AlertStore, now: int, symbol: string, message: Message, kind: AlertKind): (r: AlertStore)
    ensures |r.alerts| == |s.alerts| + 1
    ensures r.alerts[..|s.alerts|] == s.alerts
    ensures r.alerts[|s.alerts|] == Alert(now, symbol, message, kind)
    ensures r.thresholds == s.thresholds
  {
    s.(alerts := s.alerts + [Alert(now, symbol, message, kind)])
  }

  /** Neither update can add or drop a threshold key. */
  lemma UpdatesKeepValid(s: AlertStore, kind: string, value: real, now: int, symbol: string, m: Message, k: AlertKind)
    requires Valid(s)
    ensures Valid(SetThreshold(s, kind, value))
    ensures Valid(AddAlert(s, now, symbol, m, k))
  {
  }

  // ---------------------------------------------------------------------
  // Query

  /** Python's `xs[:limit]` keeps this many of `n` elements, a negative limit counting from the end. */
  function SliceCount(n: nat, limit: int): (k: nat)
    ensures k <= n
    ensures limit >= 0 ==> k == Min(limit as real, n as real) as int
  {
    if limit >= 0 then (if limit < n then limit else n)
    else if n + limit > 0 then n + limit else 0
  }

  function AlertKey(a: Alert): Key
  {
    Key(a.timestamp, 0.0)
  }

  /** `get_alerts(limit)`: the store sorted newest first (stable for equal times), cut to `limit`. */
  function GetAlerts(s: AlertStore, limit: int): (r: seq<Alert>)
    ensures |r| == SliceCount(|s.alerts|, limit)
  {
    SortLength(s.alerts, AlertKey);
    Sort(s.alerts, AlertKey)[..SliceCount(|s.alerts|, limit)]
  }

  /**
   * The query returns alerts of the store, newest first, and none that it
   * leaves out is newer than one it returns.
   */
  lemma GetAlertsNewest(s: AlertStore, limit: int)
    ensures multiset(GetAlerts(s, limit)) <= multiset(s.alerts)
    ensures forall i, j :: 0 <= i < j < |GetAlerts(s, limit)| ==>
      GetAlerts(s, limit)[i].timestamp >= GetAlerts(s, limit)[j].timestamp
    ensures forall x: Alert, i :: x in multiset(s.alerts) - multiset(GetAlerts(s, limit)) && 0 <= i < |GetAlerts(s, limit)| ==>
      x.timestamp <= GetAlerts(s, limit)[i].timestamp
  {
    var m := SliceCount(|s.alerts|, limit);
    var r := GetAlerts(s, limit);
    TopSelection(s.alerts, AlertKey, m);
    assert r == Sort(s.alerts, AlertKey)[..m];
    forall i, j | 0 <= i < j < |r|
      ensures r[i].timestamp >= r[j].timestamp
    {
      assert AtLeast(AlertKey(r[i]), AlertKey(r[j]));
    }
    forall x: Alert, i | x in multiset(s.alerts) - multiset(r) && 0 <= i < |r|
      ensures x.timestamp <= r[i].timestamp
    {
      assert AtLeast(AlertKey(r[i]), AlertKey(x));
    }
  }

  /** Among alerts with the same timestamp the query keeps the order they were added in. */
  lemma GetAlertsKeepsOrderOfEquals(s: AlertStore, t: int)
    ensures WithKey(GetAlerts(s, |s.alerts|), AlertKey, Key(t, 0.0)) == WithKey(s.alerts, AlertKey, Key(t, 0.0))
  {
    SortLength(s.alerts, AlertKey);
    var sorted := Sort(s.alerts, AlertKey);
    assert GetAlerts(s, |s.alerts|) == sorted;
    SortStable(s.alerts, AlertKey, Key(t, 0.0));
  }

  // ---------------------------------------------------------------------
  // Price rule

  /**
   * The alert for one holding's closes, or `None`. The move is
   * `(cur - prev) / prev`; from a previous close of 0 the float division
   * gives an infinity (an alert) unless the current close is 0 as well
   * (not-a-number, no alert).
   */
  function PriceSignal(closes: seq<real>, threshold: real): Option<Message>
    requires |closes| >= 2
  {
    var cur := closes[|closes| - 1];
    var prev := closes[|closes| - 2];
    if prev == 0.0 then (if cur != 0.0 then Some(PriceJump) else None)
    else
      var change := (cur - prev) / prev;
      if Abs(change) > threshold then Some(PriceChanged(change)) else None
  }

  /** With a non-zero previous close the rule is a strict comparison of the relative move. */
  lemma PriceSignalIff(closes: seq<real>, threshold: real)
    requires |closes| >= 2 && closes[|closes| - 2] != 0.0
    ensures var cur := closes[|closes| - 1];
      var prev := closes[|closes| - 2];
      PriceSignal(closes, threshold).Some? <==> Abs(cur - prev) > threshold * Abs(prev)
  {
    var cur := closes[|closes| - 1];
    var prev := closes[|closes| - 2];
    var change := (cur - prev) / prev;
    assert change * prev == cur - prev;
    AbsProduct(change, prev);
    if Abs(change) > threshold {
      StrictScale(threshold, Abs(change), Abs(prev));
    } else {
      ScaleAtMost(Abs(change), threshold, Abs(prev));
    }
  }

  lemma AbsProduct(a: real, b: real)
    ensures Abs(a * b) == Abs(a) * Abs(b)
  {
  }

  lemma StrictScale(a: real, b: real, c: real)
    requires a < b && c > 0.0
    ensures a * c < b * c
  {
  }

  lemma ScaleAtMost(a: real, b: real, c: real)
    requires a <= b && c >= 0.0
    ensures a * c <= b * c
  {
  }

  /** The outcome of a check: finished, or stopped by an error that reaches the caller. */
  datatype CheckOutcome = Done(store: AlertStore) | Raised(store: AlertStore)

  /** The alerts one holding contributes: its price alert when it has two closes and the rule fires. */
  function AlertsFor(now: int, sym: string, cs: seq<real>, threshold: real): (r: seq<Alert>)
    ensures |r| <= 1
    ensures forall i :: 0 <= i < |r| ==> r[i].timestamp == now && r[i].symbol == sym && r[i].kind == PriceAlert
  {
    if |cs| >= 2 && PriceSignal(cs, threshold).Some?
    then [Alert(now, sym, PriceSignal(cs, threshold).value, PriceAlert)]
    else []
  }

  /**
   * `check_price_alerts` over the holdings' symbols in ledger order, with
   * `closes` giving each symbol's recent closes and `clock[i]` the reading
   * `add_alert` takes for holding `i`, after that holding's fetch. No
   * closes: skipped. A single close: indexing the one before it fails, and
   * the error leaves the alerts added so far in place.
   */
  function CheckPriceAlerts(s: AlertStore, clock: seq<int>, symbols: seq<string>, closes: string -> seq<real>): (r: CheckOutcome)
    requires PriceChangeKey in s.thresholds
    requires |clock| == |symbols|
    ensures r.store.thresholds == s.thresholds
    ensures |s.alerts| <= |r.store.alerts| <= |s.alerts| + |symbols|
    ensures r.store.alerts[..|s.alerts|] == s.alerts
    decreases |symbols|
  {
    if |symbols| == 0 then Done(s)
    else
      var sym := symbols[0];
      var cs := closes(sym);
      if |cs| == 1 then Raised(s)
      else
        var next := s.(alerts := s.alerts + AlertsFor(clock[0], sym, cs, s.thresholds[PriceChangeKey]));
        var r := CheckPriceAlerts(next, clock[1..], symbols[1..], closes);
        assert r.store.alerts[..|s.alerts|] == r.store.alerts[..|next.alerts|][..|s.alerts|];
        r
  }

  /** The alerts a complete price check adds: one per holding whose rule fires, in ledger order. */
  function PriceAlertsFor(clock: seq<int>, symbols: seq<string>, closes: string -> seq<real>, threshold: real): seq<Alert>
    requires |clock| == |symbols|
  {
    if |symbols| == 0 then []
    else AlertsFor(clock[0], symbols[0], closes(symbols[0]), threshold) + PriceAlertsFor(clock[1..], symbols[1..], closes, threshold)
  }

  /**
   * With a clock that never runs backwards, the alerts of a check are
   * stamped in ledger order, each with one of the check's readings; the
   * query therefore lists a later holding's alert before an earlier one's
   * whenever their readings differ.
   */
  lemma {:induction false} PriceAlertsInClockOrder(clock: seq<int>, symbols: seq<string>, closes: string -> seq<real>, threshold: real)
    requires |clock| == |symbols|
    requires forall i, j :: 0 <= i <= j < |clock| ==> clock[i] <= clock[j]
    ensures forall i :: 0 <= i < |PriceAlertsFor(clock, symbols, closes, threshold)| ==>
      PriceAlertsFor(clock, symbols, closes, threshold)[i].timestamp in clock
    ensures forall i, j :: 0 <= i < j < |PriceAlertsFor(clock, symbols, closes, threshold)| ==>
      PriceAlertsFor(clock, symbols, closes, threshold)[i].timestamp <= PriceAlertsFor(clock, symbols, closes, threshold)[j].timestamp
    decreases |symbols|
  {
    if |symbols| > 0 {
      var here := AlertsFor(clock[0], symbols[0], closes(symbols[0]), threshold);
      var tail := PriceAlertsFor(clock[1..], symbols[1..], closes, threshold);
      var r := here + tail;
      assert PriceAlertsFor(clock, symbols, closes, threshold) == r;
      PriceAlertsInClockOrder(clock[1..], symbols[1..], closes, threshold);
      forall k | 0 <= k < |tail|
        ensures tail[k].timestamp in clock && clock[0] <= tail[k].timestamp
      {
        var m :| 0 <= m < |clock[1..]| && clock[1..][m] == tail[k].timestamp;
        assert clock[1..][m] == clock[m + 1];
      }
      forall i | 0 <= i < |r|
        ensures r[i].timestamp in clock && clock[0] <= r[i].timestamp
      {
        if i >= |here| {
          assert r[i] == tail[i - |here|];
        }
      }
      forall i, j | 0 <= i < j < |r|
        ensures r[i].timestamp <= r[j].timestamp
      {
        if i >= |here| {
          assert r[i] == tail[i - |here|] && r[j] == tail[j - |here|];
        } else {
          assert r[i].timestamp == clock[0];
        }
      }
    }
  }

  /**
   * When no holding has exactly one close, the check finishes and appends
   * exactly the alerts of the holdings whose rule fires.
   */
  lemma {:induction false} CheckPriceAlertsAppends(s: AlertStore, clock: seq<int>, symbols: seq<string>, closes: string -> seq<real>)
    requires PriceChangeKey in s.thresholds
    requires |clock| == |symbols|
    requires forall i :: 0 <= i < |symbols| ==> |closes(symbols[i])| != 1
    ensures CheckPriceAlerts(s, clock, symbols, closes)
         == Done(s.(alerts := s.alerts + PriceAlertsFor(clock, symbols, closes, s.thresholds[PriceChangeKey])))
    decreases |symbols|
  {
    if |symbols| > 0 {
      var th := s.thresholds[PriceChangeKey];
      var here := AlertsFor(clock[0], symbols[0], closes(symbols[0]), th);
      var tail := PriceAlertsFor(clock[1..], symbols[1..], closes, th);
      var next := s.(alerts := s.alerts + here);
      CheckPriceAlertsStep(s, clock, symbols, closes);
      assert forall i :: 0 <= i < |symbols| - 1 ==> symbols[1..][i] == symbols[i + 1];
      CheckPriceAlertsAppends(next, clock[1..], symbols[1..], closes);
      assert PriceAlertsFor(clock, symbols, closes, th) == here + tail;
      assert next.alerts + tail == s.alerts + (here + tail);
    }
  }

  /** One step of the check over a holding that has no single close. */
  lemma CheckPriceAlertsStep(s: AlertStore, clock: seq<int>, symbols: seq<string>, closes: string -> seq<real>)
    requires PriceChangeKey in s.thresholds
    requires |clock| == |symbols|
    requires |symbols| > 0 && |closes(symbols[0])| != 1
    ensures CheckPriceAlerts(s, clock, symbols, closes)
         == CheckPriceAlerts(s.(alerts := s.alerts + AlertsFor(clock[0], symbols[0], closes(symbols[0]), s.thresholds[PriceChangeKey])),
                             clock[1..], symbols[1..], closes)
  {
  }

  /**
   * The first holding with a single close stops the check with an error:
   * the alerts of the holdings before it stay, and no later holding is
   * checked.
   */
  lemma {:induction false} SingleCloseRaises(s: AlertStore, clock: seq<int>, symbols: seq<string>, closes: string -> seq<real>, k: nat)
    requires PriceChangeKey in s.thresholds
    requires |clock| == |symbols|
    requires k < |symbols| && |closes(symbols[k])| == 1
    requires forall i :: 0 <= i < k ==> |closes(symbols[i])| != 1
    ensures CheckPriceAlerts(s, clock, symbols, closes)
         == Raised(s.(alerts := s.alerts + PriceAlertsFor(clock[..k], symbols[..k], closes, s.thresholds[PriceChangeKey])))
    decreases k
  {
    var th := s.thresholds[PriceChangeKey];
    if k == 0 {
      assert s.alerts + PriceAlertsFor(clock[..0], symbols[..0], closes, th) == s.alerts;
    } else {
      var here := AlertsFor(clock[0], symbols[0], closes(symbols[0]), th);
      var next := s.(alerts := s.alerts + here);
      CheckPriceAlertsStep(s, clock, symbols, closes);
      assert symbols[1..][k - 1] == symbols[k];
      assert forall i :: 0 <= i < k - 1 ==> symbols[1..][i] == symbols[i + 1];
      SingleCloseRaises(next, clock[1..], symbols[1..], closes, k - 1);
      var tail := PriceAlertsFor(clock[1..][..k - 1], symbols[1..][..k - 1], closes, th);
      PriceAlertsForPrefix(clock, symbols, closes, th, k);
      assert next.alerts + tail == s.alerts + (here + tail);
    }
  }

  /** The alerts of the first `k` holdings: the first holding's, then those of the next `k - 1`. */
  lemma PriceAlertsForPrefix(clock: seq<int>, symbols: seq<string>, closes: string -> seq<real>, threshold: real, k: nat)
    requires |clock| == |symbols| && 0 < k <= |symbols|
    ensures PriceAlertsFor(clock[..k], symbols[..k], closes, threshold)
         == AlertsFor(clock[0], symbols[0], closes(symbols[0]), threshold)
            + PriceAlertsFor(clock[1..][..k - 1], symbols[1..][..k - 1], closes, threshold)
  {
    assert symbols[..k][1..] == symbols[1..][..k - 1];
    assert clock[..k][1..] == clock[1..][..k - 1];
  }

  // ---------------------------------------------------------------------
  // Market rule

  /** `check_market_alerts`: one alert when the VIX is reported and above 30, otherwise nothing. */
  function CheckMarketAlerts(s: AlertStore, now: int, indicators: map<string, real>): (r: AlertStore)
    ensures r.thresholds == s.thresholds
    ensures |s.alerts| <= |r.alerts| <= |s.alerts| + 1
    ensures r.alerts[..|s.alerts|] == s.alerts
  {
    if VixKey in indicators && indicators[VixKey] > VixLimit
    then AddAlert(s, now, "Market", HighVolatility(indicators[VixKey]), MarketAlert)
    else s
  }

  /** An alert is added exactly when the index is present and strictly above 30. */
  lemma CheckMarketAlertsIff(s: AlertStore, now: int, indicators: map<string, real>)
    ensures |CheckMarketAlerts(s, now, indicators).alerts| == |s.alerts| + 1 <==>
      VixKey in indicators && indicators[VixKey] > VixLimit
    ensures |CheckMarketAlerts(s, now, indicators).alerts| == |s.alerts| + 1 ==>
      CheckMarketAlerts(s, now, indicators).alerts[|s.alerts|].message == HighVolatility(indicators[VixKey])
  {
  }

  /** Every check keeps the threshold keys of a valid store. */
  lemma ChecksKeepValid(s: AlertStore, clock: seq<int>, symbols: seq<string>, closes: string -> seq<real>, now: int, indicators: map<string, real>)
    requires Valid(s)
    requires |clock| == |symbols|
    ensures PriceChangeKey in s.thresholds
    ensures Valid(CheckPriceAlerts(s, clock, symbols, closes).store)
    ensures Valid(CheckMarketAlerts(s, now, indicators))
  {
  }
}

=== FILE: analysis.dfy ===
/**
 * Portfolio analysis: the impact score of an economic event, the sector
 * exposure of the ledger, and the risk report. `log10` is an input
 * function, and the market indicators are an input map.
 */
module Analysis {
  import opened Wrappers
  import opened Numeric
  import opened Portfolio

  /** `event_weights`: the event types with their own base weight. */
  const EventWeights: map<string, real> := map[
    "Fed Interest Rate" := 0.8,
    "GDP Report" := 0.6,
    "Unemployment Rate" := 0.5,
    "Geopolitical" := 0.7,
    "Supply Chain" := 0.6
  ]

  /** `event_weights.get(event, 0.5)`. */
  function EventWeight(event: string): (w: real)
    ensures 0.5 <= w <= 0.8
  {
    if event in EventWeights then EventWeights[event] else 0.5
  }

  /** Any type outside the table gets the default weight. */
  lemma UnknownEventDefault(event: string)
    ensures event !in EventWeights ==> EventWeight(event) == 0.5
    ensures EventWeight(event) == 0.5 <==> event !in EventWeights || event == "Unemployment Rate"
  {
  }

  /** `calculate_impact_score`: 0 without holdings, else `base * (1 + log10(n))` capped at 1. */
  function ImpactScore(ledger: Ledger, event: string, log10: real -> real): (r: real)
    ensures r <= 1.0
    ensures |ledger| == 0 ==> r == 0.0
  {
    var n := |ledger|;
    if n == 0 then 0.0
    else Min(EventWeight(event) * (1.0 + log10(n as real)), 1.0)
  }

  /** With `log10(1) = 0`, a single holding scores exactly its event's base weight. */
  lemma SingleHoldingScore(h: Holding, event: string, log10: real -> real)
    requires log10(1.0) == 0.0
    ensures ImpactScore([h], event, log10) == EventWeight(event)
  {
  }

  /** With a non-decreasing `log10`, more holdings never lower the score. */
  lemma ImpactScoreMonotone(a: Ledger, b: Ledger, event: string, log10: real -> real)
    requires 0 < |a| <= |b|
    requires log10(|a| as real) <= log10(|b| as real)
    ensures ImpactScore(a, event, log10) <= ImpactScore(b, event, log10)
  {
    var w := EventWeight(event);
    var x := 1.0 + log10(|a| as real);
    var y := 1.0 + log10(|b| as real);
    assert w * x <= w * y by {
      assert w * (y - x) >= 0.0;
    }
  }

  // ---------------------------------------------------------------------
  // Sector exposure

  /** Every holding is assigned to this sector. */
  const Technology := "Technology"

  /**
   * A cell of the `Current Value` column stored on the holdings: a number
   * written by the last valuation, or NaN for a row added since then
   * (`pd.concat` fills the new row's missing column with NaN).
   */
  datatype Cell = Val(v: real) | Missing

  /** A sector weight: a number, or NaN once a NaN cell has entered the running sum. */
  datatype Number = Num(r: real) | NaN

  /** The column `get_portfolio_value` stores: one number per row. */
  function Valued(values: seq<real>): seq<Cell>
  {
    seq(|values|, i requires 0 <= i < |values| => Val(values[i]))
  }

  /** The column after `add_position`: a NaN cell for the new row, or still no column. */
  function ColumnAfterAdd(column: Option<seq<Cell>>): (r: Option<seq<Cell>>)
    ensures r.None? <==> column.None?
    ensures r.Some? ==> |r.value| == |column.value| + 1 && r.value[..|column.value|] == column.value
  {
    match column
    case None => None
    case Some(cells) => Some(cells + [Missing])
  }

  /** pandas' `.sum()` of the column, which skips NaN. */
  function ColumnSum(cells: seq<Cell>): real
  {
    if |cells| == 0 then 0.0
    else ColumnSum(cells[..|cells| - 1]) + (match cells[|cells| - 1] case Val(v) => v case Missing => 0.0)
  }

  /** The loop's running `sector_weights['Technology']`: `value / total` added row by row. */
  function ShareSum(cells: seq<Cell>, total: real): Number
    requires total != 0.0
  {
    if |cells| == 0 then Num(0.0)
    else
      match (ShareSum(cells[..|cells| - 1], total), cells[|cells| - 1])
      case (Num(acc), Val(v)) => Num(acc + v / total)
      case _ => NaN
  }

  /** The outcome of `analyze_sector_exposure`: a `KeyError` for a missing column, or the weights. */
  datatype Exposure = MissingColumn | Weights(weights: map<string, Number>)

  /**
   * `analyze_sector_exposure` on the stored `Current Value` column (`None`
   * before the first valuation): empty when the column sums to 0,
   * otherwise the one sector with the summed shares.
   */
  function SectorExposure(column: Option<seq<Cell>>): (r: Exposure)
    ensures r.MissingColumn? <==> column.None?
    ensures r.Weights? ==> r.weights.Keys <= {Technology}
  {
    match column
    case None => MissingColumn
    case Some(cells) =>
      var total := ColumnSum(cells);
      if total == 0.0 then Weights(map[])
      else Weights(map[Technology := ShareSum(cells, total)])
  }

  /** A valuation's column sums to the sum of its values. */
  lemma {:induction false} ColumnSumValued(values: seq<real>)
    ensures ColumnSum(Valued(values)) == Sum(values)
    decreases |values|
  {
    if |values| > 0 {
      var n := |values| - 1;
      assert Valued(values)[..n] == Valued(values[..n]);
      ColumnSumValued(values[..n]);
    }
  }

  /** Over a valuation's column, the accumulated shares equal the sum of the values over the total. */
  lemma {:induction false} ShareSumIsRatio(values: seq<real>, total: real)
    requires total != 0.0
    ensures ShareSum(Valued(values), total) == Num(Sum(values) / total)
    decreases |values|
  {
    if |values| > 0 {
      var n := |values| - 1;
      assert Valued(values)[..n] == Valued(values[..n]);
      ShareSumIsRatio(values[..n], total);
      assert Sum(values[..n]) / total + values[n] / total == (Sum(values[..n]) + values[n]) / total;
    }
  }

  /** Over a valuation's column the exposure is empty exactly when the values sum to 0; otherwise the sector weights sum to 1. */
  lemma SectorWeightsSumToOne(values: seq<real>)
    ensures SectorExposure(Some(Valued(values))) == Weights(map[]) <==> Sum(values) == 0.0
    ensures Sum(values) != 0.0 ==> SectorExposure(Some(Valued(values))) == Weights(map[Technology := Num(1.0)])
  {
    ColumnSumValued(values);
    var total := Sum(values);
    if total != 0.0 {
      ShareSumIsRatio(values, total);
      assert total / total == 1.0;
      assert Technology in SectorExposure(Some(Valued(values))).weights;
    }
  }

  /** A NaN cell anywhere makes the running sum NaN. */
  lemma {:induction false} NaNAbsorbs(cells: seq<Cell>, total: real, k: int)
    requires total != 0.0
    requires 0 <= k < |cells| && cells[k] == Missing
    ensures ShareSum(cells, total) == NaN
    decreases |cells|
  {
    var n := |cells| - 1;
    if k < n {
      assert cells[..n][k] == Missing;
      NaNAbsorbs(cells[..n], total, k);
    }
  }

  /**
   * Right after a valuation the exposure is that of the valued column; a
   * position added since then gives the one sector a NaN weight whenever
   * the earlier rows' values do not sum to 0.
   */
  lemma ExposureAfterValuation(ledger: Ledger, price: string -> Option<real>)
    ensures var (total, column) := PortfolioValue(ledger, price);
      SectorExposure(Some(Valued(column)))
        == if total == 0.0 then Weights(map[]) else Weights(map[Technology := Num(1.0)])
    ensures var (total, column) := PortfolioValue(ledger, price);
      SectorExposure(ColumnAfterAdd(Some(Valued(column))))
        == if total == 0.0 then Weights(map[]) else Weights(map[Technology := NaN])
  {
    var (total, column) := PortfolioValue(ledger, price);
    SectorWeightsSumToOne(column);
    var cells := Valued(column) + [Missing];
    assert cells[..|cells| - 1] == Valued(column);
    ColumnSumValued(column);
    assert ColumnSum(cells) == total;
    if total != 0.0 {
      NaNAbsorbs(cells, total, |cells| - 1);
    }
  }

  // ---------------------------------------------------------------------
  // Risk report

  datatype MarketTrend = Bullish | Bearish

  datatype Recommendation = Hold

  datatype RiskReport = RiskReport(metrics: Risk, volatility: real, marketTrend: MarketTrend, recommendation: Recommendation)

  /** `indicators.get(key, 0)`. */
  function GetOrZero(indicators: map<string, real>, key: string): real
  {
    if key in indicators then indicators[key] else 0.0
  }

  /** `generate_risk_report`: the ledger's risk scores, the VIX (0 when missing) and the S&P 500 trend. */
  function GenerateRiskReport(ledger: Ledger, indicators: map<string, real>): (r: RiskReport)
    ensures r.metrics == PortfolioRisk(ledger)
    ensures r.recommendation == Hold
  {
    var sp := GetOrZero(indicators, "S&P 500");
    RiskReport(PortfolioRisk(ledger), GetOrZero(indicators, "Volatility Index"), if sp > 0.0 then Bullish else Bearish, Hold)
  }

  /** The trend is bullish exactly when the S&P 500 level is reported and positive. */
  lemma MarketTrendIff(ledger: Ledger, indicators: map<string, real>)
    ensures GenerateRiskReport(ledger, indicators).marketTrend == Bullish <==>
      "S&P 500" in indicators && indicators["S&P 500"] > 0.0
    ensures "Volatility Index" !in indicators ==> GenerateRiskReport(ledger, indicators).volatility == 0.0
  {
  }
}

=== FILE: collections.dfy ===
/** Order-preserving selection over sequences: the list-comprehension-with-`if` idiom. */
module Collections {
  import opened Wrappers

  /** Keep, in order, the results `f` produces, dropping the elements it maps to `None`. */
  function FilterMap<A, B>(f: A -> Option<B>, s: seq<A>): (r: seq<B>)
    ensures |r| <= |s|
    decreases |s|
  {
    if |s| == 0 then []
    else (match f(s[0]) case Some(b) => [b] case None => []) + FilterMap(f, s[1..])
  }

  /** Order preservation: the results for `a + b` are those for `a` followed by those for `b`. */
  lemma {:induction false} FilterMapAppend<A, B>(f: A -> Option<B>, a: seq<A>, b: seq<A>)
    ensures FilterMap(f, a + b) == FilterMap(f, a) + FilterMap(f, b)
    decreases |a|
  {
    if |a| == 0 {
      assert a + b == b;
    } else {
      assert (a + b)[0] == a[0];
      assert (a + b)[1..] == a[1..] + b;
      FilterMapAppend(f, a[1..], b);
    }
  }

  /** Python's `s[:n]` for `n >= 0`. */
  function Take<A>(s: seq<A>, n: nat): (r: seq<A>)
    ensures |r| <= n && |r| <= |s|
    ensures |s| <= n ==> r == s
  {
    if |s| <= n then s else s[..n]
  }

  /** With a cap `n` not exceeded, filtering the capped concatenation concatenates the results. */
  lemma FilterMapTakeAppend<A, B>(f: A -> Option<B>, a: seq<A>, b: seq<A>, n: nat)
    requires |a| + |b| <= n
    ensures FilterMap(f, Take(a + b, n)) == FilterMap(f, Take(a, n)) + FilterMap(f, Take(b, n))
  {
    FilterMapAppend(f, a, b);
  }

  /** Elements past the cap never matter. */
  lemma TakeIgnoresTail<A>(a: seq<A>, more: seq<A>, n: nat)
    requires |a| >= n
    ensures Take(a + more, n) == Take(a, n)
  {
    assert (a + more)[..n] == a[..n];
  }

  /** An element `f` keeps appears in the output. */
  lemma {:induction false} KeptElementAppears<A, B>(f: A -> Option<B>, s: seq<A>, i: int)
    requires 0 <= i < |s| && f(s[i]).Some?
    ensures f(s[i]).value in FilterMap(f, s)
    decreases i
  {
    var head := match f(s[0]) case Some(b) => [b] case None => [];
    assert FilterMap(f, s) == head + FilterMap(f, s[1..]);
    if i > 0 {
      assert s[1..][i - 1] == s[i];
      KeptElementAppears(f, s[1..], i - 1);
    }
  }

  /** Keep, in order, the elements satisfying `p`. */
  function Filter<A>(p: A -> bool, s: seq<A>): (r: seq<A>)
    ensures |r| <= |s|
    ensures forall i :: 0 <= i < |r| ==> r[i] in s && p(r[i])
    ensures forall i :: 0 <= i < |s| && p(s[i]) ==> s[i] in r
    decreases |s|
  {
    if |s| == 0 then []
    else
      var tail := Filter(p, s[1..]);
      assert forall i :: 1 <= i < |s| ==> s[i] == s[1..][i - 1];
      assert forall i :: 0 <= i < |tail| ==> tail[i] in s;
      (if p(s[0]) then [s[0]] else []) + tail
  }

  lemma {:induction false} FilterAppend<A>(p: A -> bool, a: seq<A>, b: seq<A>)
    ensures Filter(p, a + b) == Filter(p, a) + Filter(p, b)
    decreases |a|
  {
    if |a| == 0 {
      assert a + b == b;
    } else {
      assert (a + b)[0] == a[0];
      assert (a + b)[1..] == a[1..] + b;
      FilterAppend(p, a[1..], b);
    }
  }

  /** Filtering a list whose every element passes changes nothing. */
  lemma {:induction false} FilterAllPass<A>(p: A -> bool, s: seq<A>)
    requires forall i :: 0 <= i < |s| ==> p(s[i])
    ensures Filter(p, s) == s
    decreases |s|
  {
    if |s| > 0 {
      FilterAllPass(p, s[1..]);
    }
  }

  lemma FilterIdempotent<A>(p: A -> bool, s: seq<A>)
    ensures Filter(p, Filter(p, s)) == Filter(p, s)
  {
    var r := Filter(p, s);
    assert forall i :: 0 <= i < |r| ==> r[i] in r;
    FilterAllPass(p, r);
  }

  /** Filtering drops something exactly when some element fails the test. */
  lemma {:induction false} FilterDropsIff<A>(p: A -> bool, s: seq<A>)
    ensures |Filter(p, s)| < |s| <==> exists i :: 0 <= i < |s| && !p(s[i])
    decreases |s|
  {
    if |s| > 0 {
      FilterDropsIff(p, s[1..]);
      if exists i :: 0 <= i < |s| - 1 && !p(s[1..][i]) {
        var i :| 0 <= i < |s| - 1 && !p(s[1..][i]);
        assert !p(s[i + 1]);
      }
      if exists i :: 0 <= i < |s| && !p(s[i]) {
        var i :| 0 <= i < |s| && !p(s[i]);
        if i > 0 {
          assert !p(s[1..][i - 1]);
        }
      }
    }
  }
}

=== FILE: news_analyzer.dfy ===
/**
 * The article-impact pipeline of `NewsAnalyzer`: a lexicon classifier that
 * never fails, a remote text-completion path whose reply is an input, the
 * guard that drops articles without a title or description, and the fetch
 * loop that keeps at most four analysed articles in source order.
 */
module NewsAnalyzer {
  import opened Wrappers
  import opened Text
  import opened Collections

  // ---------------------------------------------------------------------
  // Labels

  /** The four lexicon tiers, in the order the phrase table lists them. */
  datatype Tier = VeryPositive | SomewhatPositive | SomewhatNegative | VeryNegative

  /** Position of a tier in the phrase table; ties go to the smaller rank. */
  function Rank(t: Tier): nat
  {
    match t
    case VeryPositive => 0
    case SomewhatPositive => 1
    case SomewhatNegative => 2
    case VeryNegative => 3
  }

  /** The `market_impact` field: a lexicon tier, the lexicon's "Ambivalent", or the remote path's binary label. */
  datatype Impact = Tiered(tier: Tier) | Ambivalent | Positive | Negative

  /** The labels the lexicon classifier may produce. */
  predicate IsLexiconLabel(i: Impact)
  {
    i.Tiered? || i == Ambivalent
  }

  function TierName(t: Tier): string
  {
    match t
    case VeryPositive => "Very Positive"
    case SomewhatPositive => "Somewhat Positive"
    case SomewhatNegative => "Somewhat Negative"
    case VeryNegative => "Very Negative"
  }

  function ImpactName(i: Impact): string
  {
    match i
    case Tiered(t) => TierName(t)
    case Ambivalent => "Ambivalent"
    case Positive => "Positive"
    case Negative => "Negative"
  }

  function TierPhrases(t: Tier): seq<string>
  {
    match t
    case VeryPositive => ["surge", "breakthrough", "exceeds expectations", "record high"]
    case SomewhatPositive => ["increase", "growth", "improvement", "gains"]
    case SomewhatNegative => ["decline", "below expectations", "challenges"]
    case VeryNegative => ["plunge", "crisis", "major setback", "significant loss"]
  }

  // ---------------------------------------------------------------------
  // Records

  /**
   * A field read by subscript: a key the JSON object lacks (which raises
   * `KeyError`), an explicit `null` (read as `None`), or a string.
   */
  datatype Field = Absent | Null | Str(text: string)

  /** The value a subscript yields for a present key: `None` for `null`. */
  function FieldValue(f: Field): Option<string>
    requires !f.Absent?
  {
    if f.Null? then None else Some(f.text)
  }

  /**
   * One entry of the news search result. `title` and `description` are read
   * with `.get`, so a missing key and `null` are both `None`; `url` and
   * `publishedAt` are subscripted, so the two differ.
   */
  datatype RawArticle = RawArticle(
    title: Option<string>,
    description: Option<string>,
    url: Field,
    publishedAt: Field)

  /** The analysis dictionary produced for one article. */
  datatype Verdict = Verdict(summary: string, significance: string, impact: Impact, explanation: string)

  /** One entry of the `articles` list handed to the page. */
  datatype ProcessedArticle = ProcessedArticle(
    title: string, summary: string, url: Option<string>, publishedAt: Option<string>, analysis: Verdict)

  /**
   * The analyser's configuration: whether a completion-service key is set,
   * and the reply the service gives to a prompt (`None` for a refused call,
   * a non-200 status, a transport error or a malformed body).
   */
  datatype Analyzer = Analyzer(hasLlmKey: bool, llm: string -> Option<string>)

  /** Python truthiness of an optional string field. */
  predicate Present(s: Option<string>)
  {
    s.Some? && s.value != ""
  }

  // ---------------------------------------------------------------------
  // Lexicon scoring

  /** Per-tier phrase counts. */
  datatype Scores = Scores(vp: nat, sp: nat, sn: nat, vn: nat) {
    function Of(t: Tier): nat
    {
      match t
      case VeryPositive => vp
      case SomewhatPositive => sp
      case SomewhatNegative => sn
      case VeryNegative => vn
    }
  }

  function ScoreText(text: string): (s: Scores)
    ensures forall t :: s.Of(t) <= |TierPhrases(t)|
  {
    Scores(
      CountMatches(TierPhrases(VeryPositive), text),
      CountMatches(TierPhrases(SomewhatPositive), text),
      CountMatches(TierPhrases(SomewhatNegative), text),
      CountMatches(TierPhrases(VeryNegative), text))
  }

  /**
   * Python's `max(scores.items(), key=count)`: scanning the tiers in table
   * order, a later tier replaces the best so far only with a strictly larger
   * count.
   */
  function BestTier(s: Scores): (t: Tier)
    ensures forall u :: s.Of(u) <= s.Of(t)
    ensures forall u :: Rank(u) < Rank(t) ==> s.Of(u) < s.Of(t)
  {
    var b1 := VeryPositive;
    var b2 := if s.Of(SomewhatPositive) > s.Of(b1) then SomewhatPositive else b1;
    var b3 := if s.Of(SomewhatNegative) > s.Of(b2) then SomewhatNegative else b2;
    if s.Of(VeryNegative) > s.Of(b3) then VeryNegative else b3
  }

  /** No phrase of any tier occurs in `text`. */
  predicate NoPhraseOccurs(text: string)
  {
    forall t: Tier, p :: p in TierPhrases(t) ==> !Contains(text, Lower(p))
  }

  lemma {:induction false} CountMatchesZero(phrases: seq<string>, text: string)
    ensures CountMatches(phrases, text) == 0 <==> forall p :: p in phrases ==> !Contains(text, Lower(p))
    decreases |phrases|
  {
    if |phrases| > 0 {
      var n := |phrases| - 1;
      CountMatchesZero(phrases[..n], text);
      assert phrases == phrases[..n] + [phrases[n]];
    }
  }

  lemma AllZeroIffNoPhrase(text: string)
    ensures (forall t :: ScoreText(text).Of(t) == 0) <==> NoPhraseOccurs(text)
  {
    CountMatchesZero(TierPhrases(VeryPositive), text);
    CountMatchesZero(TierPhrases(SomewhatPositive), text);
    CountMatchesZero(TierPhrases(SomewhatNegative), text);
    CountMatchesZero(TierPhrases(VeryNegative), text);
    assert ScoreText(text).Of(VeryPositive) == CountMatches(TierPhrases(VeryPositive), text);
  }

  // ---------------------------------------------------------------------
  // Summary

  /** The text of `s` before its first `.`, or all of `s` when it has none. */
  function BeforeDot(s: string): string
  {
    if '.' in s then s[..IndexOf(s, '.')] else s
  }

  /** The text of `s` after its first `.`. */
  function AfterDot(s: string): string
    requires '.' in s
  {
    s[IndexOf(s, '.') + 1..]
  }

  lemma SplitPieces(s: string)
    ensures Split(s, '.')[0] == BeforeDot(s)
    ensures |Split(s, '.')| > 1 <==> '.' in s
    ensures '.' in s ==> Split(s, '.')[1] == BeforeDot(AfterDot(s))
  {
    if '.' in s {
      var rest := s[IndexOf(s, '.') + 1..];
      assert Split(rest, '.')[0] == BeforeDot(rest) by { SplitPieces(rest); }
    }
  }

  /**
   * The summary: the title up to its first `.`, then, when the description
   * has a second `.`-piece, that piece stripped, joined with ". ".
   */
  function Summary(title: string, description: string): string
  {
    var head := if title != "" then [Split(title, '.')[0]] else [];
    var pieces := Split(description, '.');
    var tail := if description != "" && |pieces| > 1 then [Strip(pieces[1])] else [];
    Join(". ", head + tail)
  }

  /**
   * The summary in terms of the first two `.`: the title's text before its
   * first dot, then the description's text between its first and second
   * dots, stripped, when the description has a dot at all.
   */
  lemma SummaryShape(title: string, description: string)
    ensures '.' !in description ==> Summary(title, description) == BeforeDot(title)
    ensures '.' in description && title != "" ==>
              Summary(title, description) == BeforeDot(title) + ". " + Strip(BeforeDot(AfterDot(description)))
    ensures '.' in description && title == "" ==>
              Summary(title, description) == Strip(BeforeDot(AfterDot(description)))
  {
    SplitPieces(title);
    SplitPieces(description);
    var pieces := Split(description, '.');
    if '.' in description {
      var seg := Strip(pieces[1]);
      if title != "" {
        assert Join(". ", [Split(title, '.')[0]] + [seg]) == Split(title, '.')[0] + ". " + seg;
      } else {
        assert Join(". ", [] + [seg]) == seg;
      }
    } else {
      if title != "" {
        assert Join(". ", [Split(title, '.')[0]] + []) == Split(title, '.')[0];
      }
    }
  }

  // ---------------------------------------------------------------------
  // Classifiers

  // Fixed texts of the records and the prompt.
  const MixedExplanation := "News has mixed or unclear implications for the company's performance"
  const SignificanceLead := "This news potentially affects the company's market position and business operations. "
  const ErrorSignificance := "Unable to analyze specific impact"
  const ErrorExplanation := "Insufficient information for detailed analysis"
  const PromptInstruction :=
    "Summarize article and analyze with up to a paragraph explaining potential impact on stock price. "
    + "Focus on specific business metrics and market expectations."

  function Explanation(i: Impact): string
  {
    if i == Ambivalent then MixedExplanation
    else "Multiple indicators suggest " + Lower(ImpactName(i)) + " impact on company value"
  }

  /**
   * The label of `_simple_analysis` for the lower-cased text: "Ambivalent"
   * when no phrase of any tier occurs, otherwise a tier with the most
   * occurring phrases, the earliest tier of the table on a tie.
   */
  function LexiconLabel(text: string): (i: Impact)
    ensures IsLexiconLabel(i)
    ensures i == Ambivalent <==> NoPhraseOccurs(text)
    ensures i.Tiered? ==> forall u :: ScoreText(text).Of(u) <= ScoreText(text).Of(i.tier)
    ensures i.Tiered? ==> forall u :: Rank(u) < Rank(i.tier) ==> ScoreText(text).Of(u) < ScoreText(text).Of(i.tier)
  {
    var scores := ScoreText(text);
    AllZeroIffNoPhrase(text);
    if scores.vp == 0 && scores.sp == 0 && scores.sn == 0 && scores.vn == 0 then Ambivalent
    else Tiered(BestTier(scores))
  }

  /**
   * `_simple_analysis`: the summary, and the lexicon label of the
   * lower-cased `title. description` with its fixed explanation texts.
   */
  function SimpleAnalysis(title: string, description: string): (r: Verdict)
    ensures IsLexiconLabel(r.impact)
  {
    var impact := LexiconLabel(Lower(title + ". " + description));
    var explanation := Explanation(impact);
    Verdict(
      Summary(title, description),
      SignificanceLead + explanation + ".",
      impact,
      explanation)
  }

  /**
   * The record of `_simple_analysis` reads the phrases of `title. description`,
   * lower-cased: "Ambivalent" exactly when none occurs, otherwise a tier with
   * the most occurring phrases; the summary and explanation go with it.
   */
  lemma SimpleAnalysisReadsText(title: string, description: string)
    ensures var r := SimpleAnalysis(title, description);
      var text := Lower(title + ". " + description);
      && (r.impact == Ambivalent <==> NoPhraseOccurs(text))
      && (r.impact.Tiered? ==> forall u :: ScoreText(text).Of(u) <= ScoreText(text).Of(r.impact.tier))
      && r.summary == Summary(title, description)
      && r.explanation == Explanation(r.impact)
  {
    var text := Lower(title + ". " + description);
    assert SimpleAnalysis(title, description).impact == LexiconLabel(text);
  }

  /** The record `_simple_analysis` returns from its exception handler. */
  function ErrorVerdict(title: string): (r: Verdict)
    ensures IsLexiconLabel(r.impact)
  {
    Verdict(title, ErrorSignificance, Ambivalent, ErrorExplanation)
  }

  /** Every record of the lexicon classifier, normal or exceptional, carries one of its five labels. */
  lemma LexiconAlwaysLabelled(title: string, description: string)
    ensures IsLexiconLabel(SimpleAnalysis(title, description).impact)
    ensures IsLexiconLabel(ErrorVerdict(title).impact)
    ensures ImpactName(SimpleAnalysis(title, description).impact)
              in {"Very Positive", "Somewhat Positive", "Somewhat Negative", "Very Negative", "Ambivalent"}
  {
  }

  function Prompt(title: string, description: string): string
  {
    "Article: " + title + "\n" + description + "\n\n" + PromptInstruction
  }

  /** The remote path's binary label. */
  function RemoteImpact(reply: string): (i: Impact)
    ensures i == Positive || i == Negative
  {
    var low := Lower(reply);
    if Contains(low, "increase") || Contains(low, "growth") then Positive else Negative
  }

  /** "Positive" exactly when "increase" or "growth" occurs somewhere in the lower-cased reply. */
  lemma RemoteImpactPositiveIff(reply: string)
    ensures RemoteImpact(reply) == Positive <==>
              exists i :: OccursAt(Lower(reply), "increase", i) || OccursAt(Lower(reply), "growth", i)
  {
    ContainsIff(Lower(reply), "increase");
    ContainsIff(Lower(reply), "growth");
  }

  /** The reply of the completion service for an article, when a key is configured. */
  function RemoteReply(az: Analyzer, title: string, description: string): Option<string>
  {
    if az.hasLlmKey then az.llm(Prompt(title, description)) else None
  }

  /**
   * `_analyze_article`: no record for an article without a title or a
   * description; otherwise the remote reply when a key is set and the
   * reply is non-empty, and the lexicon classifier in every other case.
   */
  function AnalyzeArticle(az: Analyzer, a: RawArticle): (r: Option<Verdict>)
    ensures r.None? <==> !Present(a.title) || !Present(a.description)
  {
    if !Present(a.title) || !Present(a.description) then None
    else
      var title := a.title.value;
      var description := a.description.value;
      var reply := RemoteReply(az, title, description);
      if Present(reply) then Some(Verdict(title, reply.value, RemoteImpact(reply.value), reply.value))
      else Some(SimpleAnalysis(title, description))
  }

  /** With a usable reply the record is the remote one: the title as summary, the reply as significance, its binary label. */
  lemma AnalyzeArticleRemote(az: Analyzer, a: RawArticle)
    requires Present(a.title) && Present(a.description)
    requires Present(RemoteReply(az, a.title.value, a.description.value))
    ensures az.hasLlmKey
    ensures var reply := RemoteReply(az, a.title.value, a.description.value).value;
      && AnalyzeArticle(az, a).value.summary == a.title.value
      && AnalyzeArticle(az, a).value.significance == reply
      && AnalyzeArticle(az, a).value.impact == RemoteImpact(reply)
  {
  }

  /** Without a key, or with no usable reply, the record is the lexicon classifier's. */
  lemma AnalyzeArticleFallback(az: Analyzer, a: RawArticle)
    requires Present(a.title) && Present(a.description)
    requires !az.hasLlmKey || !Present(az.llm(Prompt(a.title.value, a.description.value)))
    ensures AnalyzeArticle(az, a) == Some(SimpleAnalysis(a.title.value, a.description.value))
    ensures IsLexiconLabel(AnalyzeArticle(az, a).value.impact)
  {
  }

  // ---------------------------------------------------------------------
  // Fetching

  const MarketContext := "AND (market OR earnings OR financial OR economy)"

  /** The news search query: the symbol, or "(SYM stock OR Company)" when a company name is given, then the market-context clause. */
  function SearchQuery(symbol: string, company: Option<string>): (q: string)
    ensures |q| > |MarketContext| && q[|q| - |MarketContext|..] == MarketContext
  {
    var head := if Present(company) then "(" + symbol + " stock OR " + company.value + ")" else symbol;
    head + " " + MarketContext
  }

  /** The query mentions the symbol, and the company name when one is given. */
  lemma SearchQueryMentions(symbol: string, company: Option<string>)
    ensures Contains(SearchQuery(symbol, company), symbol)
    ensures Present(company) ==> Contains(SearchQuery(symbol, company), company.value)
  {
    var q := SearchQuery(symbol, company);
    if Present(company) {
      assert q == "(" + symbol + " stock OR " + company.value + ")" + " " + MarketContext;
      assert q[1..1 + |symbol|] == symbol;
      assert OccursAt(q, symbol, 1);
      assert q[|symbol| + 11..|symbol| + 11 + |company.value|] == company.value;
      assert OccursAt(q, company.value, |symbol| + 11);
      ContainsIff(q, company.value);
    } else {
      assert q[0..|symbol|] == symbol;
      assert OccursAt(q, symbol, 0);
    }
    ContainsIff(q, symbol);
  }

  /**
   * One article through the loop body; `None` when it is skipped or its
   * handler caught a missing key. A `null` url or date is copied as `None`.
   */
  function ProcessOne(az: Analyzer, a: RawArticle): Option<ProcessedArticle>
  {
    match AnalyzeArticle(az, a)
    case None => None
    case Some(v) =>
      if a.url.Absent? || a.publishedAt.Absent? then None
      else Some(ProcessedArticle(a.title.value, v.summary, FieldValue(a.url), FieldValue(a.publishedAt), v))
  }

  /** The loop body as a function value, for `FilterMap`. */
  function Processor(az: Analyzer): RawArticle -> Option<ProcessedArticle>
  {
    a => ProcessOne(az, a)
  }

  const MaxArticles := 4

  /** The outcome of the news search request. */
  datatype SearchResponse =
    | RequestFailed                    // the request or the decoding of its body raised
    | BadStatus                        // an answer with a status other than 200
    | Body(articles: seq<RawArticle>)  // the `articles` list of a 200 answer, empty when absent

  /**
   * `fetch_relevant_news`: only the first four articles are analysed. A
   * failed request (caught by the outer handler), a non-200 status and an
   * empty list all give the empty article list.
   */
  function FetchRelevantNews(az: Analyzer, response: SearchResponse): (r: seq<ProcessedArticle>)
    ensures |r| <= MaxArticles
    ensures response.Body? ==> |r| <= |response.articles|
    ensures !response.Body? || response.articles == [] ==> r == []
  {
    match response
    case RequestFailed => []
    case BadStatus => []
    case Body(arts) =>
      if |arts| == 0 then []
      else FilterMap(Processor(az), Take(arts, MaxArticles))
  }

  lemma FetchIsCappedFilter(az: Analyzer, arts: seq<RawArticle>)
    ensures FetchRelevantNews(az, Body(arts)) == FilterMap(Processor(az), Take(arts, MaxArticles))
  {
  }

  /** Articles after the fourth never influence the result. */
  lemma FetchIgnoresBeyondFourth(az: Analyzer, arts: seq<RawArticle>, more: seq<RawArticle>)
    requires |arts| >= MaxArticles
    ensures FetchRelevantNews(az, Body(arts + more)) == FetchRelevantNews(az, Body(arts))
  {
    TakeIgnoresTail(arts, more, MaxArticles);
  }

  /**
   * Source order: within the first four, the records for `a + b` are the
   * records for `a` followed by the records for `b`.
   */
  lemma FetchConcatenates(az: Analyzer, a: seq<RawArticle>, b: seq<RawArticle>)
    requires |a| + |b| <= MaxArticles
    ensures FetchRelevantNews(az, Body(a + b)) == FetchRelevantNews(az, Body(a)) + FetchRelevantNews(az, Body(b))
  {
    FetchIsCappedFilter(az, a + b);
    FetchIsCappedFilter(az, a);
    FetchIsCappedFilter(az, b);
    FilterMapTakeAppend(Processor(az), a, b, MaxArticles);
  }

  /** A single article yields its record, or nothing when it is skipped. */
  lemma FetchSingle(az: Analyzer, x: RawArticle)
    ensures FetchRelevantNews(az, Body([x])) == match ProcessOne(az, x) case Some(p) => [p] case None => []
  {
    assert [x][..1] == [x];
    assert [x][1..] == [];
  }

  /**
   * An article with a title, a description and both subscripted keys is
   * never skipped: it keeps its title, and a `null` url or date is kept as `None`.
   */
  lemma ProcessOneKeeps(az: Analyzer, a: RawArticle)
    requires Present(a.title) && Present(a.description)
    requires !a.url.Absent? && !a.publishedAt.Absent?
    ensures ProcessOne(az, a).Some? && ProcessOne(az, a).value.title == a.title.value
    ensures ProcessOne(az, a).value.url.None? <==> a.url.Null?
    ensures ProcessOne(az, a).value.publishedAt.None? <==> a.publishedAt.Null?
  {
    assert AnalyzeArticle(az, a).Some?;
  }

  /** A missing `url` or `publishedAt` key raises inside the loop body, so the article is skipped. */
  lemma ProcessOneMissingKey(az: Analyzer, a: RawArticle)
    requires a.url.Absent? || a.publishedAt.Absent?
    ensures ProcessOne(az, a).None?
  {
  }

  /**
   * An article among the first four that has a title, a description and
   * both the `url` and the `publishedAt` key always reaches the output.
   */
  lemma CompleteArticleKept(az: Analyzer, arts: seq<RawArticle>, i: nat)
    requires i < |arts| && i < MaxArticles
    requires Present(arts[i].title) && Present(arts[i].description)
    requires !arts[i].url.Absent? && !arts[i].publishedAt.Absent?
    ensures ProcessOne(az, arts[i]).Some?
    ensures ProcessOne(az, arts[i]).value in FetchRelevantNews(az, Body(arts))
    ensures ProcessOne(az, arts[i]).value.title == arts[i].title.value
  {
    var front := Take(arts, MaxArticles);
    var f := Processor(az);
    FetchIsCappedFilter(az, arts);
    assert front[i] == arts[i];
    ProcessOneKeeps(az, arts[i]);
    assert f(front[i]) == ProcessOne(az, arts[i]);
    KeptElementAppears(f, front, i);
  }
}

=== FILE: numeric.dfy ===
/** Exact-real arithmetic helpers shared by the scoring modules. */
module Numeric {

  function Abs(x: real): (r: real)
    ensures r >= 0.0
    ensures r == x || r == -x
  {
    if x < 0.0 then -x else x
  }

  /** Python's `min(a, b)`: the first argument unless the second is smaller. */
  function Min(a: real, b: real): (r: real)
    ensures r <= a && r <= b
    ensures r == a || r == b
  {
    if b < a then b else a
  }

  /** Python's `max(a, b)`: the first argument unless the second is larger. */
  function Max(a: real, b: real): (r: real)
    ensures r >= a && r >= b
    ensures r == a || r == b
  {
    if b > a then b else a
  }

  /** Left-to-right accumulation `0 + xs[0] + ... + xs[n-1]`, as a Python loop or `sum` computes it. */
  function Sum(xs: seq<real>): real
  {
    if |xs| == 0 then 0.0 else Sum(xs[..|xs| - 1]) + xs[|xs| - 1]
  }

  /** Arithmetic mean of a non-empty window. */
  function Mean(xs: seq<real>): real
    requires |xs| > 0
  {
    Sum(xs) / (|xs| as real)
  }

  /** Mean of a constant window is that constant. */
  lemma {:induction false} SumConstant(xs: seq<real>, c: real)
    requires forall i :: 0 <= i < |xs| ==> xs[i] == c
    ensures Sum(xs) == (|xs| as real) * c
    decreases |xs|
  {
    if |xs| > 0 {
      SumConstant(xs[..|xs| - 1], c);
    }
  }

  lemma MeanConstant(xs: seq<real>, c: real)
    requires |xs| > 0
    requires forall i :: 0 <= i < |xs| ==> xs[i] == c
    ensures Mean(xs) == c
  {
    SumConstant(xs, c);
  }
}

=== FILE: portfolio.dfy ===
/**
 * The holdings ledger: a sequence of (symbol, shares, entry price) rows
 * with append, remove-every-row-of-a-symbol, the valuation at current
 * prices and the two risk scores derived from the number of rows.
 *
 * The last close of each symbol is an input (`None` when the price request
 * came back empty).
 */
module Portfolio {
  import opened Wrappers
  import opened Numeric
  import opened Collections

  datatype Holding = Holding(symbol: string, shares: real, entryPrice: real)

  type Ledger = seq<Holding>

  /** `add_position`: one row appended at the end, earlier rows untouched. */
  function AddPosition(ledger: Ledger, symbol: string, shares: real, entryPrice: real): (r: Ledger)
    ensures |r| == |ledger| + 1
    ensures r[..|ledger|] == ledger
    ensures r[|ledger|] == Holding(symbol, shares, entryPrice)
  {
    ledger + [Holding(symbol, shares, entryPrice)]
  }

  /** The "keep this row" test of `remove_position(symbol)`, as a value. */
  function OtherThan(symbol: string): Holding -> bool
  {
    (h: Holding) => h.symbol != symbol
  }

  /** `remove_position`: every row of the symbol is dropped, the others kept in order. */
  function RemovePosition(ledger: Ledger, symbol: string): (r: Ledger)
    ensures |r| <= |ledger|
    ensures forall i :: 0 <= i < |r| ==> r[i].symbol != symbol
  {
    Filter(OtherThan(symbol), ledger)
  }

  /** A row survives removal exactly when it was in the ledger under another symbol. */
  lemma RemovePositionKeeps(ledger: Ledger, symbol: string, h: Holding)
    ensures h in RemovePosition(ledger, symbol) <==> h in ledger && h.symbol != symbol
  {
    var r := RemovePosition(ledger, symbol);
    if h in r {
      var i :| 0 <= i < |r| && r[i] == h;
    }
    if h in ledger && h.symbol != symbol {
      var i :| 0 <= i < |ledger| && ledger[i] == h;
    }
  }

  /** Removing a symbol the ledger does not hold changes nothing. */
  lemma RemoveAbsent(ledger: Ledger, symbol: string)
    requires forall i :: 0 <= i < |ledger| ==> ledger[i].symbol != symbol
    ensures RemovePosition(ledger, symbol) == ledger
  {
    FilterAllPass(OtherThan(symbol), ledger);
  }

  /** Removing twice is removing once. */
  lemma RemoveIdempotent(ledger: Ledger, symbol: string)
    ensures RemovePosition(RemovePosition(ledger, symbol), symbol) == RemovePosition(ledger, symbol)
  {
    FilterIdempotent(OtherThan(symbol), ledger);
  }

  /** Removing a symbol undoes adding it, and leaves a row of another symbol at the end. */
  lemma RemoveAfterAdd(ledger: Ledger, symbol: string, shares: real, entryPrice: real, other: string)
    ensures RemovePosition(AddPosition(ledger, symbol, shares, entryPrice), symbol) == RemovePosition(ledger, symbol)
    ensures other != symbol ==>
      RemovePosition(AddPosition(ledger, symbol, shares, entryPrice), other)
      == AddPosition(RemovePosition(ledger, other), symbol, shares, entryPrice)
  {
    var row := [Holding(symbol, shares, entryPrice)];
    FilterAppend(OtherThan(symbol), ledger, row);
    FilterAppend(OtherThan(other), ledger, row);
    assert row[1..] == [];
  }

  // ---------------------------------------------------------------------
  // Valuation

  /** The `Current Value` of one row: price times shares, or 0 without a price. */
  function RowValue(h: Holding, price: string -> Option<real>): real
  {
    match price(h.symbol)
    case Some(p) => p * h.shares
    case None => 0.0
  }

  /** The `Current Value` column, one entry per row. */
  function CurrentValues(ledger: Ledger, price: string -> Option<real>): (vs: seq<real>)
    ensures |vs| == |ledger|
    ensures forall i :: 0 <= i < |ledger| ==> vs[i] == RowValue(ledger[i], price)
  {
    seq(|ledger|, i requires 0 <= i < |ledger| => RowValue(ledger[i], price))
  }

  /**
   * `get_portfolio_value`: the running total over the rows that have a
   * price, and the value column; the total is the column's sum, rows
   * without a price counting 0.
   */
  function PortfolioValue(ledger: Ledger, price: string -> Option<real>): (r: (real, seq<real>))
    ensures |r.1| == |ledger|
    ensures forall i :: 0 <= i < |ledger| ==> r.1[i] == RowValue(ledger[i], price)
    ensures r.0 == Sum(r.1)
  {
    TotalIsSumOfColumn(ledger, price);
    (PricedTotal(ledger, price), CurrentValues(ledger, price))
  }

  /** The loop's total: only rows with a price add to it. */
  function PricedTotal(ledger: Ledger, price: string -> Option<real>): real
  {
    if |ledger| == 0 then 0.0
    else
      var last := ledger[|ledger| - 1];
      PricedTotal(ledger[..|ledger| - 1], price)
      + match price(last.symbol) case Some(p) => p * last.shares case None => 0.0
  }

  /** The running total equals the sum of the value column. */
  lemma {:induction false} TotalIsSumOfColumn(ledger: Ledger, price: string -> Option<real>)
    ensures PricedTotal(ledger, price) == Sum(CurrentValues(ledger, price))
    decreases |ledger|
  {
    if |ledger| > 0 {
      var n := |ledger| - 1;
      TotalIsSumOfColumn(ledger[..n], price);
      var vs := CurrentValues(ledger, price);
      assert vs[..n] == CurrentValues(ledger[..n], price);
    }
  }

  /** Adding a row adds its value to the total. */
  lemma ValueAfterAdd(ledger: Ledger, symbol: string, shares: real, entryPrice: real, price: string -> Option<real>)
    ensures PortfolioValue(AddPosition(ledger, symbol, shares, entryPrice), price).0
         == PortfolioValue(ledger, price).0 + RowValue(Holding(symbol, shares, entryPrice), price)
  {
    var r := AddPosition(ledger, symbol, shares, entryPrice);
    assert r[..|r| - 1] == ledger;
  }

  // ---------------------------------------------------------------------
  // Risk

  /** `calculate_portfolio_risk`: 0 for an empty ledger, else the two scores. */
  datatype Risk = NoHoldings | Scores(diversification: real, sectorRisk: real)

  function PortfolioRisk(ledger: Ledger): (r: Risk)
    ensures r.NoHoldings? <==> |ledger| == 0
    ensures r.Scores? ==> 0.0 < r.diversification <= 1.0 && r.diversification + r.sectorRisk == 1.0
  {
    if |ledger| < 1 then NoHoldings
    else
      var d := Min(|ledger| as real / 10.0, 1.0);
      Scores(d, 1.0 - d)
  }

  /** More rows never lower the diversification score, and ten or more give full marks. */
  lemma DiversificationMonotone(a: Ledger, b: Ledger)
    requires 0 < |a| <= |b|
    ensures PortfolioRisk(a).diversification <= PortfolioRisk(b).diversification
    ensures |a| >= 10 ==> PortfolioRisk(a).diversification == 1.0 && PortfolioRisk(a).sectorRisk == 0.0
  {
  }

  // ---------------------------------------------------------------------
  // What the dashboard reads from the ledger updates

  /** The message the dashboard shows after an add or remove button. */
  datatype Feedback = Succeeded | Failed

  /** The dashboard reports success exactly when the update's return value is truthy. */
  function FeedbackFor(returned: bool): Feedback
  {
    if returned then Succeeded else Failed
  }

  /** `add_position` as written: the row is appended and the method returns `None`, which is falsy. */
  function AddPositionAsWritten(ledger: Ledger, symbol: string, shares: real, entryPrice: real): (Ledger, bool)
  {
    (AddPosition(ledger, symbol, shares, entryPrice), false)
  }

  /** `remove_position` as written: the rows are removed and the method returns `None`. */
  function RemovePositionAsWritten(ledger: Ledger, symbol: string): (Ledger, bool)
  {
    (RemovePosition(ledger, symbol), false)
  }

  /**
   * Every add and every remove is reported as a failure: an add always
   * appends a row, and a remove of a held symbol always drops one.
   */
  lemma UpdatesReportFailure(ledger: Ledger, symbol: string, shares: real, entryPrice: real)
    ensures |AddPositionAsWritten(ledger, symbol, shares, entryPrice).0| == |ledger| + 1
    ensures FeedbackFor(AddPositionAsWritten(ledger, symbol, shares, entryPrice).1) == Failed
    ensures FeedbackFor(RemovePositionAsWritten(ledger, symbol).1) == Failed
    ensures (exists i :: 0 <= i < |ledger| && ledger[i].symbol == symbol) ==>
      |RemovePositionAsWritten(ledger, symbol).0| < |ledger|
  {
    if exists i :: 0 <= i < |ledger| && ledger[i].symbol == symbol {
      var i :| 0 <= i < |ledger| && ledger[i].symbol == symbol;
      assert !OtherThan(symbol)(ledger[i]);
      FilterDropsIff(OtherThan(symbol), ledger);
    }
  }

  /** `add_position` returning whether it added a row (it always does). */
  function AddPositionChecked(ledger: Ledger, symbol: string, shares: real, entryPrice: real): (Ledger, bool)
  {
    var r := AddPosition(ledger, symbol, shares, entryPrice);
    (r, |r| == |ledger| + 1)
  }

  /** `remove_position` returning whether it removed any row. */
  function RemovePositionChecked(ledger: Ledger, symbol: string): (Ledger, bool)
  {
    var r := RemovePosition(ledger, symbol);
    (r, |r| < |ledger|)
  }

  /**
   * With the corrected return values an add is always reported as done,
   * and a remove exactly when the ledger held the symbol.
   */
  lemma CheckedUpdatesReport(ledger: Ledger, symbol: string, shares: real, entryPrice: real)
    ensures AddPositionChecked(ledger, symbol, shares, entryPrice).0 == AddPosition(ledger, symbol, shares, entryPrice)
    ensures FeedbackFor(AddPositionChecked(ledger, symbol, shares, entryPrice).1) == Succeeded
    ensures RemovePositionChecked(ledger, symbol).0 == RemovePosition(ledger, symbol)
    ensures FeedbackFor(RemovePositionChecked(ledger, symbol).1) == Succeeded <==>
      exists i :: 0 <= i < |ledger| && ledger[i].symbol == symbol
  {
    FilterDropsIff(OtherThan(symbol), ledger);
    if exists i :: 0 <= i < |ledger| && !OtherThan(symbol)(ledger[i]) {
      var i :| 0 <= i < |ledger| && !OtherThan(symbol)(ledger[i]);
      assert ledger[i].symbol == symbol;
    }
    if exists i :: 0 <= i < |ledger| && ledger[i].symbol == symbol {
      var i :| 0 <= i < |ledger| && ledger[i].symbol == symbol;
      assert !OtherThan(symbol)(ledger[i]);
    }
  }
}

=== FILE: predictions.dfy ===
/**
 * The trend predictor: the feature table built from a price history
 * (two moving averages, a volatility and a momentum column, with the
 * rows that lack a full window dropped), the guards that refuse short or
 * empty histories, and the label and confidence given to the predicted
 * change.
 *
 * The rolling standard deviation, the scaler and the linear regression
 * are not modelled: the first is an input function on the 10-close window,
 * the other two together are an optional input function from the last
 * feature row to the predicted close (`None` when they were never fitted).
 */
module Predictions {
  import opened Wrappers
  import opened Numeric

  /** One row of the price history; the history has no missing values. */
  datatype Bar = Bar(open: real, high: real, low: real, close: real, volume: real)

  /** The columns the regression sees. */
  datatype FeatureRow = FeatureRow(
    open: real, high: real, low: real, volume: real,
    sma5: real, sma20: real, volatility: real, momentum: real)

  /** A complete row of the table with its target, the close of that bar. */
  datatype Sample = Sample(x: FeatureRow, y: real)

  /** Standard deviation of a window of closes. */
  type Spread = seq<real> -> real

  const ShortWindow := 5
  const LongWindow := 20
  const VolatilityWindow := 10
  const MomentumLag := 5

  /** Rows before this index lack a full 20-close window and are dropped. */
  const Warmup := LongWindow - 1

  /** Fewer complete rows than this and there are no features at all. */
  const MinRows := 30

  function Closes(bars: seq<Bar>): (c: seq<real>)
    ensures |c| == |bars|
    ensures forall i :: 0 <= i < |bars| ==> c[i] == bars[i].close
  {
    seq(|bars|, i requires 0 <= i < |bars| => bars[i].close)
  }

  /** `rolling(window=w).mean()` at row `i`: missing until `w` closes are available. */
  function RollingMean(c: seq<real>, i: nat, w: nat): (r: Option<real>)
    requires i < |c| && w > 0
    ensures r.Some? <==> i + 1 >= w
  {
    if i + 1 >= w then Some(Mean(c[i + 1 - w..i + 1])) else None
  }

  /** `rolling(window=10).std()` at row `i`. */
  function RollingSpread(c: seq<real>, i: nat, std: Spread): (r: Option<real>)
    requires i < |c|
    ensures r.Some? <==> i + 1 >= VolatilityWindow
  {
    if i + 1 >= VolatilityWindow then Some(std(c[i + 1 - VolatilityWindow..i + 1])) else None
  }

  /** `Close - Close.shift(5)` at row `i`. */
  function Momentum(c: seq<real>, i: nat): (r: Option<real>)
    requires i < |c|
    ensures r.Some? <==> i >= MomentumLag
  {
    if i >= MomentumLag then Some(c[i] - c[i - MomentumLag]) else None
  }

  /** The feature row of bar `i`, or `None` when any column is still missing there. */
  function FeatureAt(bars: seq<Bar>, i: nat, std: Spread): Option<FeatureRow>
    requires i < |bars|
  {
    var c := Closes(bars);
    match (RollingMean(c, i, ShortWindow), RollingMean(c, i, LongWindow), RollingSpread(c, i, std), Momentum(c, i))
    case (Some(s5), Some(s20), Some(v), Some(m)) =>
      var b := bars[i];
      Some(FeatureRow(b.open, b.high, b.low, b.volume, s5, s20, v, m))
    case _ => None
  }

  /** The 20-close window is the binding one: a row is complete exactly from index 19 on. */
  lemma FeatureAtPresent(bars: seq<Bar>, i: nat, std: Spread)
    requires i < |bars|
    ensures FeatureAt(bars, i, std).Some? <==> i >= Warmup
  {
  }

  /** `dropna()` over the first `n` bars: the complete rows, in order. */
  function Complete(bars: seq<Bar>, std: Spread, n: nat): seq<Sample>
    requires n <= |bars|
  {
    if n == 0 then []
    else
      Complete(bars, std, n - 1)
      + match FeatureAt(bars, n - 1, std)
        case Some(row) => [Sample(row, bars[n - 1].close)]
        case None => []
  }

  /** Exactly `n - 19` of the first `n` rows survive. */
  lemma {:induction false} CompleteLength(bars: seq<Bar>, std: Spread, n: nat)
    requires n <= |bars|
    ensures |Complete(bars, std, n)| == if n >= Warmup then n - Warmup else 0
    decreases n
  {
    if n > 0 {
      CompleteLength(bars, std, n - 1);
      FeatureAtPresent(bars, n - 1, std);
      var prev := Complete(bars, std, n - 1);
      if n - 1 >= Warmup {
        assert Complete(bars, std, n) == prev + [Sample(FeatureAt(bars, n - 1, std).value, bars[n - 1].close)];
      } else {
        assert Complete(bars, std, n) == prev;
      }
    }
  }

  /** Row `j` of the first `n` bars' table is bar `j + 19`: its features and its close. */
  lemma {:induction false} CompleteRowAt(bars: seq<Bar>, std: Spread, n: nat, j: nat)
    requires n <= |bars|
    requires j < |Complete(bars, std, n)|
    ensures j + Warmup < |bars|
    ensures FeatureAt(bars, j + Warmup, std) == Some(Complete(bars, std, n)[j].x)
    ensures Complete(bars, std, n)[j].y == bars[j + Warmup].close
    decreases n
  {
    CompleteLength(bars, std, n);
    CompleteLength(bars, std, n - 1);
    FeatureAtPresent(bars, n - 1, std);
    var prev := Complete(bars, std, n - 1);
    assert Complete(bars, std, n) == prev + [Sample(FeatureAt(bars, n - 1, std).value, bars[n - 1].close)];
    if j < |prev| {
      CompleteRowAt(bars, std, n - 1, j);
    } else {
      assert j + Warmup == n - 1;
    }
  }

  /**
   * Exactly `n - 19` rows survive, and row `j` of the table is bar `j + 19`:
   * its features, with its close as the target.
   */
  lemma CompleteRows(bars: seq<Bar>, std: Spread, n: nat)
    requires n <= |bars|
    ensures |Complete(bars, std, n)| == if n >= Warmup then n - Warmup else 0
    ensures forall j :: 0 <= j < |Complete(bars, std, n)| ==>
      && FeatureAt(bars, j + Warmup, std) == Some(Complete(bars, std, n)[j].x)
      && Complete(bars, std, n)[j].y == bars[j + Warmup].close
  {
    CompleteLength(bars, std, n);
    forall j | 0 <= j < |Complete(bars, std, n)|
      ensures FeatureAt(bars, j + Warmup, std) == Some(Complete(bars, std, n)[j].x)
      ensures Complete(bars, std, n)[j].y == bars[j + Warmup].close
    {
      CompleteRowAt(bars, std, n, j);
    }
  }

  /** `prepare_features`: the complete rows, or nothing when fewer than 30 remain. */
  function PrepareFeatures(bars: seq<Bar>, std: Spread): Option<seq<Sample>>
  {
    var rows := Complete(bars, std, |bars|);
    if |rows| < MinRows then None else Some(rows)
  }

  /** A gap-free history yields features exactly when it has at least 49 bars. */
  lemma PrepareFeaturesIff(bars: seq<Bar>, std: Spread)
    ensures PrepareFeatures(bars, std).Some? <==> |bars| >= Warmup + MinRows
    ensures PrepareFeatures(bars, std).Some? ==> |PrepareFeatures(bars, std).value| == |bars| - Warmup
  {
    CompleteRows(bars, std, |bars|);
  }

  /**
   * The columns of a complete row `i`: the trailing means of the 5 and 20
   * closes ending at bar `i`, the spread of the last 10, and the difference
   * with the close five bars earlier.
   */
  lemma FeatureColumns(bars: seq<Bar>, std: Spread, i: nat)
    requires Warmup <= i < |bars|
    ensures FeatureAt(bars, i, std).Some?
    ensures var c := Closes(bars);
      var x := FeatureAt(bars, i, std).value;
      && x.sma5 == Mean(c[i - 4..i + 1])
      && x.sma20 == Mean(c[i - 19..i + 1])
      && x.volatility == std(c[i - 9..i + 1])
      && x.momentum == c[i] - c[i - 5]
  {
  }

  /** On a flat history both averages are the price and the momentum is zero. */
  lemma FlatHistory(bars: seq<Bar>, std: Spread, i: nat, p: real)
    requires Warmup <= i < |bars|
    requires forall k :: 0 <= k < |bars| ==> bars[k].close == p
    ensures FeatureAt(bars, i, std).Some?
    ensures var x := FeatureAt(bars, i, std).value;
      x.sma5 == p && x.sma20 == p && x.momentum == 0.0
  {
    var c := Closes(bars);
    FeatureColumns(bars, std, i);
    var w5 := c[i - 4..i + 1];
    var w20 := c[i - 19..i + 1];
    assert forall k :: 0 <= k < |w5| ==> w5[k] == c[i - 4 + k] == p;
    assert forall k :: 0 <= k < |w20| ==> w20[k] == c[i - 19 + k] == p;
    MeanConstant(w5, p);
    MeanConstant(w20, p);
  }

  // ---------------------------------------------------------------------
  // Training and prediction

  /** The fitted scaler and regression, applied to one feature row. */
  type Regression = FeatureRow -> real

  /** `train`: fitting succeeds exactly when there is a feature table. */
  function Train(data: Option<seq<Bar>>, std: Spread): bool
  {
    match data
    case None => false
    case Some(bars) => |bars| > 0 && PrepareFeatures(bars, std).Some?
  }

  /** Training needs at least 49 bars of history. */
  lemma TrainIff(data: Option<seq<Bar>>, std: Spread)
    ensures Train(data, std) <==> data.Some? && |data.value| >= Warmup + MinRows
  {
    if data.Some? {
      PrepareFeaturesIff(data.value, std);
    }
  }

  datatype PredictedTrend = StrongBullish | Bullish | Bearish | StrongBearish

  /** `predict_trend`'s label for a predicted percentage change. */
  function TrendFor(change: real): PredictedTrend
  {
    if change > 1.0 then StrongBullish
    else if change > 0.0 then Bullish
    else if change > -1.0 then Bearish
    else StrongBearish
  }

  function Rank(t: PredictedTrend): int
  {
    match t
    case StrongBearish => 0
    case Bearish => 1
    case Bullish => 2
    case StrongBullish => 3
  }

  /** A larger change never gets a more bearish label; a change of exactly 0 is bearish. */
  lemma TrendForMonotone(a: real, b: real)
    requires a <= b
    ensures Rank(TrendFor(a)) <= Rank(TrendFor(b))
    ensures TrendFor(0.0) == Bearish
  {
  }

  /** The bands of the label table, each closed at the bearish end. */
  lemma TrendForBands(change: real)
    ensures TrendFor(change) == StrongBullish <==> change > 1.0
    ensures Rank(TrendFor(change)) >= Rank(Bullish) <==> change > 0.0
    ensures TrendFor(change) == StrongBearish <==> change <= -1.0
  {
  }

  /** `abs(min(max(change / 5, 0), 1))`. */
  function PredictionConfidence(change: real): (r: real)
    ensures 0.0 <= r <= 1.0
  {
    Abs(Min(Max(change / 5.0, 0.0), 1.0))
  }

  /** The clamp reaches 0 for any fall, 1 from a 5% rise on, and is `change / 5` in between. */
  lemma PredictionConfidenceClamp(change: real)
    ensures change <= 0.0 ==> PredictionConfidence(change) == 0.0
    ensures change >= 5.0 ==> PredictionConfidence(change) == 1.0
    ensures 0.0 <= change <= 5.0 ==> PredictionConfidence(change) == change / 5.0
  {
  }

  /** A higher change never lowers the confidence. */
  lemma PredictionConfidenceMonotone(a: real, b: real)
    requires a <= b
    ensures PredictionConfidence(a) <= PredictionConfidence(b)
  {
  }

  datatype Prediction = Prediction(trend: PredictedTrend, predictedChange: real, confidence: real, predictedPrice: real)

  /** `((prediction - last_price) / last_price) * 100`. */
  function PercentChange(prediction: real, last: real): real
    requires last != 0.0
  {
    ((prediction - last) / last) * 100.0
  }

  /** With a positive last price the change has the sign of the predicted move. */
  lemma PercentChangeSign(prediction: real, last: real)
    requires last > 0.0
    ensures PercentChange(prediction, last) > 0.0 <==> prediction > last
    ensures PercentChange(prediction, last) == 0.0 <==> prediction == last
    ensures PercentChange(prediction, last) < 0.0 <==> prediction < last
  {
    var q := (prediction - last) / last;
    assert q * last == prediction - last;
    if q > 0.0 {
      assert q * last > 0.0;
    } else if q < 0.0 {
      assert q * last < 0.0;
    }
  }

  /**
   * `predict_trend`: nothing for a missing or empty history, a history
   * without features, a model that was never fitted, or a last close of 0;
   * otherwise the label and confidence of the predicted change for the
   * last feature row.
   */
  function PredictTrend(data: Option<seq<Bar>>, std: Spread, model: Option<Regression>): (r: Option<Prediction>)
    ensures r.Some? ==> 0.0 <= r.value.confidence <= 1.0
    ensures r.Some? ==> r.value.trend == TrendFor(r.value.predictedChange)
  {
    match data
    case None => None
    case Some(bars) =>
      if |bars| == 0 then None
      else
        match PrepareFeatures(bars, std)
        case None => None
        case Some(rows) =>
          var last := bars[|bars| - 1].close;
          if model.None? || last == 0.0 then None
          else
            var p := model.value(rows[|rows| - 1].x);
            var change := PercentChange(p, last);
            Some(Prediction(TrendFor(change), change, PredictionConfidence(change), p))
  }

  /** The prediction is refused exactly in the guard cases, and otherwise reads the last bar's features. */
  lemma PredictTrendIff(data: Option<seq<Bar>>, std: Spread, model: Option<Regression>)
    ensures PredictTrend(data, std, model).Some? <==>
      && data.Some? && |data.value| >= Warmup + MinRows
      && model.Some? && data.value[|data.value| - 1].close != 0.0
    ensures PredictTrend(data, std, model).Some? ==>
      var bars := data.value;
      && FeatureAt(bars, |bars| - 1, std).Some?
      && PredictTrend(data, std, model).value.predictedPrice == model.value(FeatureAt(bars, |bars| - 1, std).value)
  {
    if data.Some? {
      var bars := data.value;
      PrepareFeaturesIff(bars, std);
      if |bars| >= Warmup + MinRows {
        LastFeatureRow(bars, std);
      }
    }
  }

  /** The last row of a feature table is the last bar's features. */
  lemma LastFeatureRow(bars: seq<Bar>, std: Spread)
    requires |bars| >= Warmup + MinRows
    ensures PrepareFeatures(bars, std).Some?
    ensures var rows := PrepareFeatures(bars, std).value;
      && |rows| > 0
      && FeatureAt(bars, |bars| - 1, std).Some?
      && rows[|rows| - 1].x == FeatureAt(bars, |bars| - 1, std).value
  {
    CompleteRows(bars, std, |bars|);
    var rows := Complete(bars, std, |bars|);
    assert rows[|rows| - 1] == Sample(FeatureAt(bars, |bars| - 1, std).value, bars[|bars| - 1].close);
  }

  /** Training succeeds whenever a fitted model could predict. */
  lemma PredictNeedsTrainable(data: Option<seq<Bar>>, std: Spread, model: Option<Regression>)
    requires PredictTrend(data, std, model).Some?
    ensures Train(data, std)
  {
    PredictTrendIff(data, std, model);
    TrainIff(data, std);
  }
}

=== FILE: sentiment_analyzer.dfy ===
/**
 * The sentiment side of the dashboard: which articles count as relevant,
 * how their polarities pool into one weighted score, the five-level trend
 * table, the confidence formula, the "key insights" selection and the
 * market-mood aggregate over several symbols.
 *
 * The news request is an input (`None` when it fails or answers with a
 * status other than 200), TextBlob's polarity is an input function, and
 * "now" and every parsed publish time are whole seconds.
 */
module SentimentAnalyzer {
  import opened Wrappers
  import opened Numeric
  import opened Text
  import opened Sorting
  import opened Collections

  // ---------------------------------------------------------------------
  // Relevance

  /** The twelve phrases that mark an article as market news. */
  const MarketKeywords: seq<string> := [
    "stock price", "market cap", "trading volume", "earnings report",
    "quarterly results", "revenue growth", "profit margin", "market share",
    "analyst rating", "price target", "financial results", "market performance"
  ]

  /** Seven days, in seconds. */
  const Week: int := 7 * 24 * 60 * 60

  /**
   * One article of the news response. A missing or null field is the empty
   * string; `published` is the parsed `publishedAt`, `None` when it is
   * empty or not of the form `%Y-%m-%dT%H:%M:%SZ`.
   */
  datatype NewsItem = NewsItem(title: string, description: string, published: Option<int>)

  /** The lower-cased text the keywords are searched in. */
  function SearchText(item: NewsItem): string
  {
    Lower(item.title + " " + item.description)
  }

  /** Published no more than a week before `now`. */
  predicate Recent(item: NewsItem, now: int)
  {
    item.published.Some? && !(now - item.published.value > Week)
  }

  /** `_is_relevant_news`: complete, recent, and mentioning two of the keywords. */
  predicate IsRelevant(item: NewsItem, now: int)
  {
    && item.title != "" && item.description != ""
    && Recent(item, now)
    && CountMatches(MarketKeywords, SearchText(item)) >= 2
  }

  /** The relevance test as a value, so that every use of it is the same function. */
  function RelevantAt(now: int): NewsItem -> bool
  {
    item => IsRelevant(item, now)
  }

  /** The loop's `relevant_articles`: exactly the relevant articles, in article order. */
  function Relevant(items: seq<NewsItem>, now: int): (r: seq<NewsItem>)
    ensures forall i :: 0 <= i < |r| ==> IsRelevant(r[i], now) && r[i] in items
    ensures forall i :: 0 <= i < |items| && IsRelevant(items[i], now) ==> items[i] in r
  {
    Filter(RelevantAt(now), items)
  }

  /**
   * Relevance in terms of which keywords occur: at least two distinct
   * entries of the list must appear in the text, so one is never enough.
   */
  lemma RelevantIffTwoKeywords(item: NewsItem, now: int)
    ensures IsRelevant(item, now) <==>
      && item.title != "" && item.description != "" && Recent(item, now)
      && |MatchedEntries(MarketKeywords, SearchText(item))| >= 2
  {
    CountMatchesIsCardinality(MarketKeywords, SearchText(item));
  }

  /** An article older than a week, or without a usable date, is never relevant. */
  lemma StaleIsIrrelevant(item: NewsItem, now: int)
    requires item.published.None? || now - item.published.value > Week
    ensures !IsRelevant(item, now)
  {
  }

  // ---------------------------------------------------------------------
  // Pooled weighted mean

  /** One `(score, weight)` pair of the pool. */
  datatype Weighted = Weighted(score: real, weight: real)

  function TotalWeight(fs: seq<Weighted>): real
  {
    if |fs| == 0 then 0.0 else fs[0].weight + TotalWeight(fs[1..])
  }

  function WeightedTotal(fs: seq<Weighted>): real
  {
    if |fs| == 0 then 0.0 else fs[0].score * fs[0].weight + WeightedTotal(fs[1..])
  }

  function WeightedMean(fs: seq<Weighted>): real
    requires TotalWeight(fs) != 0.0
  {
    WeightedTotal(fs) / TotalWeight(fs)
  }

  /** Every weight is non-negative and every score lies in `[lo, hi]`. */
  ghost predicate Within(fs: seq<Weighted>, lo: real, hi: real)
  {
    forall i :: 0 <= i < |fs| ==> fs[i].weight >= 0.0 && lo <= fs[i].score <= hi
  }

  lemma ScaleBetween(lo: real, s: real, hi: real, w: real)
    requires lo <= s <= hi && w >= 0.0
    ensures lo * w <= s * w <= hi * w
  {
  }

  /** Dividing by a positive number keeps bounds that held after multiplying by it. */
  lemma DivideBetween(a: real, t: real, lo: real, hi: real)
    requires t > 0.0 && lo * t <= a <= hi * t
    ensures lo <= a / t <= hi
  {
    var q := a / t;
    assert q * t == a;
    assert (q - lo) * t >= 0.0;
    assert (hi - q) * t >= 0.0;
  }

  lemma {:induction false} WeightedTotalBetween(fs: seq<Weighted>, lo: real, hi: real)
    requires Within(fs, lo, hi)
    ensures lo * TotalWeight(fs) <= WeightedTotal(fs) <= hi * TotalWeight(fs)
    decreases |fs|
  {
    if |fs| > 0 {
      assert Within(fs[1..], lo, hi) by {
        forall i | 0 <= i < |fs| - 1
          ensures fs[1..][i].weight >= 0.0 && lo <= fs[1..][i].score <= hi
        {
          assert fs[1..][i] == fs[i + 1];
        }
      }
      WeightedTotalBetween(fs[1..], lo, hi);
      ScaleBetween(lo, fs[0].score, hi, fs[0].weight);
    }
  }

  /** With non-negative weights the mean lies between any bounds of the scores. */
  lemma WeightedMeanBetween(fs: seq<Weighted>, lo: real, hi: real)
    requires Within(fs, lo, hi)
    requires TotalWeight(fs) > 0.0
    ensures lo <= WeightedMean(fs) <= hi
  {
    WeightedTotalBetween(fs, lo, hi);
    DivideBetween(WeightedTotal(fs), TotalWeight(fs), lo, hi);
  }

  lemma {:induction false} TotalWeightAppend(a: seq<Weighted>, b: seq<Weighted>)
    ensures TotalWeight(a + b) == TotalWeight(a) + TotalWeight(b)
    ensures WeightedTotal(a + b) == WeightedTotal(a) + WeightedTotal(b)
    decreases |a|
  {
    if |a| == 0 {
      assert a + b == b;
    } else {
      assert (a + b)[1..] == a[1..] + b;
      TotalWeightAppend(a[1..], b);
    }
  }

  // ---------------------------------------------------------------------
  // Scoring the relevant articles

  /** TextBlob polarity of a text. */
  type Polarity = string -> real

  ghost predicate ValidPolarity(pol: Polarity)
  {
    forall s :: -1.0 <= pol(s) <= 1.0
  }

  /**
   * The pool entries of the relevant articles, in order: the title with
   * weight `1.5 + |score|`, then the (always present) description with
   * weight 1.
   */
  function Fragments(rel: seq<NewsItem>, pol: Polarity): (fs: seq<Weighted>)
    ensures |fs| == 2 * |rel|
    ensures forall i :: 0 <= i < |rel| ==>
      && fs[2 * i] == Weighted(pol(rel[i].title), 1.5 + Abs(pol(rel[i].title)))
      && fs[2 * i + 1] == Weighted(pol(rel[i].description), 1.0)
  {
    if |rel| == 0 then []
    else
      var ts := pol(rel[0].title);
      var tail := Fragments(rel[1..], pol);
      assert forall i :: 1 <= i < |rel| ==> rel[1..][i - 1] == rel[i];
      [Weighted(ts, 1.5 + Abs(ts)), Weighted(pol(rel[0].description), 1.0)] + tail
  }

  /** Every pool entry has a score in [-1, 1] and a non-negative weight, and each article adds weight at least 2. */
  lemma FragmentsWithin(rel: seq<NewsItem>, pol: Polarity)
    requires ValidPolarity(pol)
    ensures Within(Fragments(rel, pol), -1.0, 1.0)
    ensures TotalWeight(Fragments(rel, pol)) >= 2.0 * (|rel| as real)
  {
    var fs := Fragments(rel, pol);
    forall k | 0 <= k < |fs|
      ensures fs[k].weight >= 0.0 && -1.0 <= fs[k].score <= 1.0
    {
      FragmentEntry(rel, pol, k);
    }
    FragmentsWeight(rel, pol);
  }

  /** Pool entry `k` belongs to article `k / 2`: its title when `k` is even, its description otherwise. */
  lemma FragmentEntry(rel: seq<NewsItem>, pol: Polarity, k: nat)
    requires ValidPolarity(pol) && k < 2 * |rel|
    ensures Fragments(rel, pol)[k].weight >= 0.0 && -1.0 <= Fragments(rel, pol)[k].score <= 1.0
  {
    var i := k / 2;
    if k % 2 == 0 {
      assert k == 2 * i;
      assert Fragments(rel, pol)[2 * i].score == pol(rel[i].title);
    } else {
      assert k == 2 * i + 1;
      assert Fragments(rel, pol)[2 * i + 1].score == pol(rel[i].description);
    }
  }

  /** The pool's total weight grows by at least 2 per article. */
  lemma {:induction false} FragmentsWeight(rel: seq<NewsItem>, pol: Polarity)
    ensures TotalWeight(Fragments(rel, pol)) >= 2.0 * (|rel| as real)
    decreases |rel|
  {
    if |rel| > 0 {
      var ts := pol(rel[0].title);
      var head := [Weighted(ts, 1.5 + Abs(ts)), Weighted(pol(rel[0].description), 1.0)];
      var tail := Fragments(rel[1..], pol);
      assert Fragments(rel, pol) == head + tail;
      FragmentsWeight(rel[1..], pol);
      TotalWeightAppend(head, tail);
      assert TotalWeight(head) == 2.5 + Abs(ts) by {
        assert head[1..][1..] == [];
      }
    }
  }

  // ---------------------------------------------------------------------
  // Trend table

  datatype Trend = StrongBullish | Bullish | Neutral | Bearish | StrongBearish

  /** `_get_sentiment_trend`'s direction. */
  function TrendOf(score: real): Trend
  {
    if score >= 0.5 then StrongBullish
    else if score >= 0.2 then Bullish
    else if score <= -0.5 then StrongBearish
    else if score <= -0.2 then Bearish
    else Neutral
  }

  /** Position of a trend on the bearish-to-bullish scale. */
  function Level(t: Trend): int
  {
    match t
    case StrongBearish => -2
    case Bearish => -1
    case Neutral => 0
    case Bullish => 1
    case StrongBullish => 2
  }

  function Mirror(t: Trend): (m: Trend)
    ensures Level(m) == -Level(t)
  {
    match t
    case StrongBearish => StrongBullish
    case Bearish => Bullish
    case Neutral => Neutral
    case Bullish => Bearish
    case StrongBullish => StrongBearish
  }

  /** A higher score never yields a more bearish trend. */
  lemma TrendMonotone(a: real, b: real)
    requires a <= b
    ensures Level(TrendOf(a)) <= Level(TrendOf(b))
  {
  }

  /** The table is symmetric: negating the score mirrors the trend. */
  lemma TrendSymmetric(x: real)
    ensures TrendOf(-x) == Mirror(TrendOf(x))
  {
  }

  /** The bands of the table, with the boundary values on the stronger side. */
  lemma TrendBands(x: real)
    ensures Level(TrendOf(x)) == 2 <==> x >= 0.5
    ensures Level(TrendOf(x)) >= 1 <==> x >= 0.2
    ensures Level(TrendOf(x)) <= -1 <==> x <= -0.2
    ensures Level(TrendOf(x)) == -2 <==> x <= -0.5
  {
  }

  /** The `market_impact` field of a result. */
  datatype MarketImpact = HighPositive | PositiveImpact | Low | NegativeImpact | HighNegative | NoImpact

  /** `_get_sentiment_trend`'s impact, paired with each direction. */
  function TrendImpact(t: Trend): MarketImpact
  {
    match t
    case StrongBullish => HighPositive
    case Bullish => PositiveImpact
    case Neutral => Low
    case Bearish => NegativeImpact
    case StrongBearish => HighNegative
  }

  // ---------------------------------------------------------------------
  // Confidence

  /** `min(n / 10, 1.0) * (1 + |w|) * 100`. */
  function Confidence(n: nat, w: real): real
  {
    Min(n as real / 10.0, 1.0) * (1.0 + Abs(w)) * 100.0
  }

  /** More relevant articles never lower the confidence. */
  lemma ConfidenceMonotone(n: nat, m: nat, w: real)
    requires n <= m
    ensures Confidence(n, w) <= Confidence(m, w)
  {
    var a := Min(n as real / 10.0, 1.0);
    var b := Min(m as real / 10.0, 1.0);
    assert a <= b;
    ScaleBetween(a, a, b, 1.0 + Abs(w));
  }

  /** From ten articles on, the count no longer matters. */
  lemma ConfidenceSaturates(n: nat, w: real)
    requires n >= 10
    ensures Confidence(n, w) == (1.0 + Abs(w)) * 100.0
  {
  }

  /** A count factor in `[lo, 1]` times a strength factor in `[1, 2]` lies in `[lo, 2]`. */
  lemma FactorBounds(a: real, c: real, lo: real)
    requires 0.0 <= lo <= a <= 1.0 && 1.0 <= c <= 2.0
    ensures lo <= a * c <= 2.0
  {
    ScaleBetween(lo, a, 1.0, c);
    ScaleBetween(1.0, c, 2.0, lo);
    assert lo == 1.0 * lo <= c * lo == lo * c <= a * c;
    assert a * c <= 1.0 * c == c;
  }

  /** With a score in `[-1, 1]` the confidence lies in `[0, 200]`, and is at least 10 once an article counts. */
  lemma ConfidenceRange(n: nat, w: real)
    requires -1.0 <= w <= 1.0
    ensures 0.0 <= Confidence(n, w) <= 200.0
    ensures n >= 1 ==> Confidence(n, w) >= 10.0
  {
    var a := Min(n as real / 10.0, 1.0);
    var c := 1.0 + Abs(w);
    var p := a * c;
    assert Confidence(n, w) == p * 100.0;
    FactorBounds(a, c, if n >= 1 then 0.1 else 0.0);
  }

  // ---------------------------------------------------------------------
  // Key insights

  datatype Strength = High | Medium

  /** A significant headline; `minute` is its publish time cut to whole minutes. */
  datatype Insight = Insight(title: string, score: real, impact: Strength, minute: int)

  /** `'High' if abs(score) > 0.6 else 'Medium'`. */
  function StrengthOf(score: real): Strength
  {
    if Abs(score) > 0.6 then High else Medium
  }

  /** The record kept for a relevant article (whose date is always present). */
  function InsightFor(item: NewsItem, pol: Polarity): Insight
  {
    var s := pol(item.title);
    Insight(item.title, s, StrengthOf(s), item.published.GetOr(0) / 60)
  }

  /** Only headlines with `|score| > 0.3` are significant. */
  predicate Significant(item: NewsItem, pol: Polarity)
  {
    Abs(pol(item.title)) > 0.3
  }

  /** The significant headlines of the relevant articles, in article order. */
  function SignificantNews(rel: seq<NewsItem>, pol: Polarity): (r: seq<Insight>)
    ensures |r| <= |rel|
    ensures forall i :: 0 <= i < |rel| && Significant(rel[i], pol) ==> InsightFor(rel[i], pol) in r
  {
    if |rel| == 0 then []
    else (if Significant(rel[0], pol) then [InsightFor(rel[0], pol)] else []) + SignificantNews(rel[1..], pol)
  }

  /** What makes an insight well formed: its score and strength agree and it clears the bar. */
  ghost predicate WellFormedInsight(x: Insight, pol: Polarity)
  {
    x.score == pol(x.title) && Abs(x.score) > 0.3 && x.impact == StrengthOf(x.score)
  }

  lemma {:induction false} SignificantNewsWellFormed(rel: seq<NewsItem>, pol: Polarity)
    ensures forall i :: 0 <= i < |SignificantNews(rel, pol)| ==> WellFormedInsight(SignificantNews(rel, pol)[i], pol)
    decreases |rel|
  {
    if |rel| > 0 {
      SignificantNewsWellFormed(rel[1..], pol);
      var head := if Significant(rel[0], pol) then [InsightFor(rel[0], pol)] else [];
      var tail := SignificantNews(rel[1..], pol);
      forall i | 0 <= i < |head + tail|
        ensures WellFormedInsight((head + tail)[i], pol)
      {
        if i >= |head| {
          assert (head + tail)[i] == tail[i - |head|];
        }
      }
    }
  }

  /** Newest first; among headlines of the same minute, the strongest first. */
  function InsightKey(x: Insight): Key
  {
    Key(x.minute, Abs(x.score))
  }

  const MaxInsights := 3

  /** `significant_news.sort(..., reverse=True)` followed by `[:3]`. */
  function TopInsights(sig: seq<Insight>): (r: seq<Insight>)
    ensures |r| <= MaxInsights
  {
    Take(Sort(sig, InsightKey), MaxInsights)
  }

  /**
   * The kept insights are a top-3 selection: drawn from the significant
   * ones, in descending key order, and none of those left out ranks
   * above any kept one.
   */
  lemma TopInsightsSelect(sig: seq<Insight>)
    ensures multiset(TopInsights(sig)) <= multiset(sig)
    ensures SortedDesc(TopInsights(sig), InsightKey)
    ensures |sig| >= MaxInsights ==> |TopInsights(sig)| == MaxInsights
    ensures |sig| < MaxInsights ==> multiset(TopInsights(sig)) == multiset(sig)
    ensures forall x, i :: x in multiset(sig) - multiset(TopInsights(sig)) && 0 <= i < |TopInsights(sig)| ==>
      AtLeast(InsightKey(TopInsights(sig)[i]), InsightKey(x))
  {
    var m := if |sig| < MaxInsights then |sig| else MaxInsights;
    TopSelection(sig, InsightKey, m);
    assert TopInsights(sig) == Sort(sig, InsightKey)[..m];
    if |sig| < MaxInsights {
      SortPermutes(sig, InsightKey);
    }
  }

  // ---------------------------------------------------------------------
  // One symbol

  datatype SentimentResult = SentimentResult(
    symbol: string,
    averageSentiment: real,
    direction: Trend,
    confidence: real,
    newsCount: nat,
    keyInsights: seq<Insight>,
    marketImpact: MarketImpact)

  /** `_get_neutral_sentiment`: the record returned when there is nothing to score. */
  function NeutralSentiment(symbol: string): SentimentResult
  {
    SentimentResult(symbol, 0.0, Neutral, 0.0, 0, [], NoImpact)
  }

  /** The scored record for a non-empty list of relevant articles. */
  function Scored(symbol: string, rel: seq<NewsItem>, pol: Polarity): SentimentResult
    requires |rel| > 0
  {
    var fs := Fragments(rel, pol);
    var w := if TotalWeight(fs) != 0.0 then WeightedMean(fs) else 0.0;
    var t := TrendOf(w);
    SentimentResult(symbol, w, t, Confidence(|rel|, w), |rel|, TopInsights(SignificantNews(rel, pol)), TrendImpact(t))
  }

  /**
   * `analyze_market_sentiment` on the outcome of the news request: the
   * neutral record when the request failed or no article is relevant,
   * the scored record otherwise.
   */
  function AnalyzeMarketSentiment(symbol: string, now: int, response: Option<seq<NewsItem>>, pol: Polarity): (r: SentimentResult)
    ensures r.symbol == symbol
    ensures |r.keyInsights| <= MaxInsights
  {
    match response
    case None => NeutralSentiment(symbol)
    case Some(items) =>
      var rel := Relevant(items, now);
      if |rel| == 0 then NeutralSentiment(symbol) else Scored(symbol, rel, pol)
  }

  /** The neutral record comes back exactly when there is no relevant article to score. */
  lemma NeutralIffNothingRelevant(symbol: string, now: int, response: Option<seq<NewsItem>>, pol: Polarity)
    ensures AnalyzeMarketSentiment(symbol, now, response, pol) == NeutralSentiment(symbol) <==>
      response.None? || |Relevant(response.value, now)| == 0
    ensures AnalyzeMarketSentiment(symbol, now, response, pol).newsCount ==
      if response.None? then 0 else |Relevant(response.value, now)|
  {
  }

  /**
   * A scored record: its score is a weighted mean of polarities and so lies
   * in `[-1, 1]`, its direction and impact follow the trend table, and its
   * confidence lies in `[10, 200]`.
   */
  lemma ScoredShape(symbol: string, rel: seq<NewsItem>, pol: Polarity)
    requires |rel| > 0 && ValidPolarity(pol)
    ensures var r := Scored(symbol, rel, pol);
      && -1.0 <= r.averageSentiment <= 1.0
      && r.direction == TrendOf(r.averageSentiment)
      && r.marketImpact == TrendImpact(r.direction)
      && 10.0 <= r.confidence <= 200.0
      && r.newsCount == |rel|
  {
    var fs := Fragments(rel, pol);
    FragmentsWithin(rel, pol);
    WeightedMeanBetween(fs, -1.0, 1.0);
    ConfidenceRange(|rel|, WeightedMean(fs));
  }

  /** The key insights of any result are well formed, at most three, newest first. */
  lemma KeyInsightsShape(symbol: string, now: int, response: Option<seq<NewsItem>>, pol: Polarity)
    ensures var ks := AnalyzeMarketSentiment(symbol, now, response, pol).keyInsights;
      && SortedDesc(ks, InsightKey)
      && forall i :: 0 <= i < |ks| ==> WellFormedInsight(ks[i], pol)
  {
    var r := AnalyzeMarketSentiment(symbol, now, response, pol);
    if response.Some? && |Relevant(response.value, now)| > 0 {
      var sig := SignificantNews(Relevant(response.value, now), pol);
      TopInsightsSelect(sig);
      SignificantNewsWellFormed(Relevant(response.value, now), pol);
      forall i | 0 <= i < |r.keyInsights|
        ensures WellFormedInsight(r.keyInsights[i], pol)
      {
        assert r.keyInsights[i] in multiset(sig);
        var j :| 0 <= j < |sig| && sig[j] == r.keyInsights[i];
      }
    }
  }

  // ---------------------------------------------------------------------
  // Market mood

  datatype Mood = Mood(marketSentiment: real, analyzedSymbols: nat, totalNews: nat, averageConfidence: real)

  predicate HasNews(s: SentimentResult)
  {
    s.newsCount > 0
  }

  function TotalNews(rs: seq<SentimentResult>): nat
  {
    if |rs| == 0 then 0 else rs[0].newsCount + TotalNews(rs[1..])
  }

  function TotalConfidence(rs: seq<SentimentResult>): real
  {
    if |rs| == 0 then 0.0 else rs[0].confidence + TotalConfidence(rs[1..])
  }

  /** `sum(s * (c / 100) * n)` over the retained results. */
  function MoodNumerator(rs: seq<SentimentResult>): real
  {
    if |rs| == 0 then 0.0
    else rs[0].averageSentiment * (rs[0].confidence / 100.0) * (rs[0].newsCount as real) + MoodNumerator(rs[1..])
  }

  /**
   * `get_market_mood` on the per-symbol results, as written: the numerator
   * is divided by `total_confidence * count` (or by 1 when that is not
   * positive), not by the sum of the weights `(c / 100) * n`.
   */
  function MoodOf(results: seq<SentimentResult>): Option<Mood>
  {
    var kept := Filter(HasNews, results);
    if |kept| == 0 then None
    else
      Some(Mood(MoodScore(kept), |kept|, TotalNews(kept), TotalConfidence(kept) / (|kept| as real)))
  }

  /** The divisor the mood uses as written: `total_confidence * count`. */
  function MoodDivisor(kept: seq<SentimentResult>): real
  {
    TotalConfidence(kept) * (|kept| as real)
  }

  /** The mood's score as written: the numerator over `total_confidence * count`, or over 1 when that is not positive. */
  function MoodScore(kept: seq<SentimentResult>): real
  {
    var d := MoodDivisor(kept);
    MoodNumerator(kept) / (if d > 0.0 then d else 1.0)
  }

  /** No mood exactly when no symbol had any relevant news. */
  lemma MoodNoneIff(results: seq<SentimentResult>)
    ensures MoodOf(results).None? <==> forall i :: 0 <= i < |results| ==> results[i].newsCount == 0
  {
    var kept := Filter(HasNews, results);
    if |kept| > 0 {
      assert HasNews(kept[0]) && kept[0] in results;
    }
  }

  lemma {:induction false} TotalNewsAppend(a: seq<SentimentResult>, b: seq<SentimentResult>)
    ensures TotalNews(a + b) == TotalNews(a) + TotalNews(b)
    decreases |a|
  {
    if |a| == 0 {
      assert a + b == b;
    } else {
      assert (a + b)[1..] == a[1..] + b;
      TotalNewsAppend(a[1..], b);
    }
  }

  /** Dropping the symbols without news leaves the news total unchanged. */
  lemma {:induction false} TotalNewsOfKept(results: seq<SentimentResult>)
    ensures TotalNews(Filter(HasNews, results)) == TotalNews(results)
    decreases |results|
  {
    if |results| > 0 {
      TotalNewsOfKept(results[1..]);
      var head := if HasNews(results[0]) then [results[0]] else [];
      TotalNewsAppend(head, Filter(HasNews, results[1..]));
      if HasNews(results[0]) {
        assert head[1..] == [];
      }
    }
  }

  /**
   * The mood counts every article of every symbol, the symbols with news,
   * and averages the confidence over those symbols.
   */
  lemma MoodCounts(results: seq<SentimentResult>)
    ensures MoodOf(results).Some? ==> MoodOf(results).value.totalNews == TotalNews(results)
    ensures MoodOf(results).Some? ==> MoodOf(results).value.analyzedSymbols == |Filter(HasNews, results)| > 0
    ensures MoodOf(results).Some? ==>
      MoodOf(results).value.averageConfidence
      == TotalConfidence(Filter(HasNews, results)) / (MoodOf(results).value.analyzedSymbols as real)
  {
    TotalNewsOfKept(results);
  }

  /** The per-symbol results for a list of symbols. */
  function ResultsFor(symbols: seq<string>, now: int, fetch: string -> Option<seq<NewsItem>>, pol: Polarity): (rs: seq<SentimentResult>)
    ensures |rs| == |symbols|
  {
    seq(|symbols|, i requires 0 <= i < |symbols| => AnalyzeMarketSentiment(symbols[i], now, fetch(symbols[i]), pol))
  }

  /** `get_market_mood(symbols)`, with the news request of each symbol given by `fetch`. */
  function GetMarketMood(symbols: seq<string>, now: int, fetch: string -> Option<seq<NewsItem>>, pol: Polarity): Option<Mood>
  {
    MoodOf(ResultsFor(symbols, now, fetch, pol))
  }

  /** A symbol with news has confidence at least 10. */
  lemma AnalyzedConfidence(symbol: string, now: int, response: Option<seq<NewsItem>>, pol: Polarity)
    requires ValidPolarity(pol)
    requires AnalyzeMarketSentiment(symbol, now, response, pol).newsCount > 0
    ensures AnalyzeMarketSentiment(symbol, now, response, pol).confidence >= 10.0
  {
    ScoredShape(symbol, Relevant(response.value, now), pol);
  }

  lemma {:induction false} TotalConfidencePositive(rs: seq<SentimentResult>)
    requires |rs| > 0
    requires forall i :: 0 <= i < |rs| ==> rs[i].confidence > 0.0
    ensures TotalConfidence(rs) > 0.0
    decreases |rs|
  {
    if |rs| > 1 {
      TotalConfidencePositive(rs[1..]);
    }
  }

  /**
   * On results the analyser produced, the fallback divisor 1 is never
   * used: every symbol with news has confidence at least 10, so the
   * kept symbols' total confidence is positive.
   */
  lemma GetMarketMoodDivisor(symbols: seq<string>, now: int, fetch: string -> Option<seq<NewsItem>>, pol: Polarity)
    requires ValidPolarity(pol)
    ensures var kept := Filter(HasNews, ResultsFor(symbols, now, fetch, pol));
      GetMarketMood(symbols, now, fetch, pol).Some? ==>
      && GetMarketMood(symbols, now, fetch, pol).value.marketSentiment == MoodScore(kept)
      && TotalConfidence(kept) > 0.0
  {
    var rs := ResultsFor(symbols, now, fetch, pol);
    var kept := Filter(HasNews, rs);
    forall i | 0 <= i < |kept|
      ensures kept[i].confidence > 0.0
    {
      var j :| 0 <= j < |rs| && rs[j] == kept[i];
      AnalyzedConfidence(symbols[j], now, fetch(symbols[j]), pol);
    }
    if |kept| > 0 {
      TotalConfidencePositive(kept);
    }
  }

  // ---------------------------------------------------------------------
  // The weighted mean the mood evidently intends

  /** The retained results as pool entries: sentiment with weight `(c / 100) * n`. */
  function MoodFragments(rs: seq<SentimentResult>): (fs: seq<Weighted>)
    ensures |fs| == |rs|
  {
    if |rs| == 0 then []
    else [Weighted(rs[0].averageSentiment, (rs[0].confidence / 100.0) * (rs[0].newsCount as real))] + MoodFragments(rs[1..])
  }

  /** The mood normalised by the sum of its own weights. */
  function NormalizedMood(results: seq<SentimentResult>): Option<real>
  {
    var fs := MoodFragments(Filter(HasNews, results));
    if |fs| == 0 then None
    else if TotalWeight(fs) > 0.0 then Some(WeightedMean(fs))
    else Some(0.0)
  }

  lemma {:induction false} MoodNumeratorIsWeightedTotal(rs: seq<SentimentResult>)
    ensures WeightedTotal(MoodFragments(rs)) == MoodNumerator(rs)
    decreases |rs|
  {
    if |rs| > 0 {
      MoodNumeratorIsWeightedTotal(rs[1..]);
      assert MoodFragments(rs)[1..] == MoodFragments(rs[1..]);
    }
  }

  /** Dividing by `w` and scaling by `w / d` is dividing by `d`. */
  lemma QuotientRescaled(a: real, w: real, d: real, q: real, m: real)
    requires w > 0.0 && d > 0.0 && q == a / d && m == a / w
    ensures q == m * (w / d)
  {
  }

  /** With a positive divisor the score as written is the numerator over `total_confidence * count`. */
  lemma MoodScoreQuotient(kept: seq<SentimentResult>)
    requires MoodDivisor(kept) > 0.0
    ensures MoodScore(kept) == MoodNumerator(kept) / MoodDivisor(kept)
  {
  }

  /** The corrected mean is the same numerator over the sum of the weights. */
  lemma WeightedMeanQuotient(kept: seq<SentimentResult>)
    requires TotalWeight(MoodFragments(kept)) > 0.0
    ensures WeightedMean(MoodFragments(kept)) == MoodNumerator(kept) / TotalWeight(MoodFragments(kept))
  {
    MoodNumeratorIsWeightedTotal(kept);
  }

  /** The record's score is the score of the kept symbols. */
  lemma MoodOfScore(results: seq<SentimentResult>)
    ensures MoodOf(results).Some? ==> MoodOf(results).value.marketSentiment == MoodScore(Filter(HasNews, results))
  {
  }

  /** With positive weights, the corrected mood is the weighted mean of the kept symbols. */
  lemma NormalizedMoodMean(results: seq<SentimentResult>)
    ensures TotalWeight(MoodFragments(Filter(HasNews, results))) > 0.0 ==>
      NormalizedMood(results) == Some(WeightedMean(MoodFragments(Filter(HasNews, results))))
  {
  }

  /**
   * The score as written is the weighted mean of the kept symbols scaled by
   * `w / d`, where `w` is the sum of the weights `(c / 100) * n` and `d` is
   * `total_confidence * count`: it equals the weighted mean only when the
   * two divisors agree.
   */
  lemma MoodScoreAsWritten(kept: seq<SentimentResult>)
    ensures var w := TotalWeight(MoodFragments(kept));
      var d := MoodDivisor(kept);
      w > 0.0 && d > 0.0 ==> MoodScore(kept) == WeightedMean(MoodFragments(kept)) * (w / d)
  {
    var w := TotalWeight(MoodFragments(kept));
    var d := MoodDivisor(kept);
    if w > 0.0 && d > 0.0 {
      MoodScoreQuotient(kept);
      WeightedMeanQuotient(kept);
      QuotientRescaled(MoodNumerator(kept), w, d, MoodScore(kept), WeightedMean(MoodFragments(kept)));
    }
  }

  /**
   * On the per-symbol results: whenever there is a mood and both divisors
   * are positive, the mood as written is the corrected mood times `w / d`.
   */
  lemma MoodOfRescaled(results: seq<SentimentResult>)
    ensures var kept := Filter(HasNews, results);
      var w := TotalWeight(MoodFragments(kept));
      MoodOf(results).Some? && w > 0.0 && MoodDivisor(kept) > 0.0 ==>
      MoodOf(results).value.marketSentiment == NormalizedMood(results).value * (w / MoodDivisor(kept))
  {
    var kept := Filter(HasNews, results);
    MoodOfScore(results);
    NormalizedMoodMean(results);
    MoodScoreAsWritten(kept);
  }

  lemma {:induction false} MoodFragmentsWithin(rs: seq<SentimentResult>, lo: real, hi: real)
    requires forall i :: 0 <= i < |rs| ==> rs[i].confidence >= 0.0 && lo <= rs[i].averageSentiment <= hi
    ensures Within(MoodFragments(rs), lo, hi)
    decreases |rs|
  {
    if |rs| > 0 {
      MoodFragmentsWithin(rs[1..], lo, hi);
      var fs := MoodFragments(rs);
      forall i | 0 <= i < |fs|
        ensures fs[i].weight >= 0.0 && lo <= fs[i].score <= hi
      {
        if i > 0 {
          assert fs[i] == MoodFragments(rs[1..])[i - 1];
        }
      }
    }
  }

  /** Symbols with news and positive confidence give a positive total weight. */
  lemma {:induction false} KeptWeightPositive(rs: seq<SentimentResult>)
    requires |rs| > 0
    requires forall i :: 0 <= i < |rs| ==> rs[i].newsCount > 0 && rs[i].confidence > 0.0
    ensures TotalWeight(MoodFragments(rs)) > 0.0
    decreases |rs|
  {
    var fs := MoodFragments(rs);
    assert fs[1..] == MoodFragments(rs[1..]);
    assert fs[0].weight > 0.0 by {
      ScaleBetween(0.0, 1.0, rs[0].newsCount as real, rs[0].confidence / 100.0);
    }
    if |rs| > 1 {
      KeptWeightPositive(rs[1..]);
    }
  }

  /**
   * The corrected mood lies between the lowest and highest sentiment of the
   * symbols kept; symbols without news play no part.
   */
  lemma NormalizedMoodBetween(results: seq<SentimentResult>, lo: real, hi: real)
    requires forall i :: 0 <= i < |results| && results[i].newsCount > 0 ==>
      results[i].confidence > 0.0 && lo <= results[i].averageSentiment <= hi
    ensures NormalizedMood(results).Some? ==> lo <= NormalizedMood(results).value <= hi
  {
    var kept := Filter(HasNews, results);
    forall i | 0 <= i < |kept|
      ensures kept[i].newsCount > 0 && kept[i].confidence > 0.0 && lo <= kept[i].averageSentiment <= hi
    {
      var j :| 0 <= j < |results| && results[j] == kept[i];
    }
    if |kept| > 0 {
      MoodFragmentsWithin(kept, lo, hi);
      KeptWeightPositive(kept);
      WeightedMeanBetween(MoodFragments(kept), lo, hi);
    }
  }

  /** With one symbol of news, the corrected mood is that symbol's sentiment. */
  lemma NormalizedMoodSingle(r: SentimentResult)
    requires r.newsCount > 0 && r.confidence > 0.0
    ensures NormalizedMood([r]) == Some(r.averageSentiment)
  {
    assert Filter(HasNews, [r]) == [r] by {
      FilterAllPass(HasNews, [r]);
    }
    var fs := MoodFragments([r]);
    var w := (r.confidence / 100.0) * (r.newsCount as real);
    assert [r][1..] == [];
    assert MoodFragments([r][1..]) == [];
    assert |fs| == 1;
    assert fs[0].score == r.averageSentiment;
    assert fs[0].weight == w;
    assert fs == [Weighted(r.averageSentiment, w)];
    assert fs[1..] == [];
    assert w > 0.0 by {
      ScaleBetween(0.0, 1.0, r.newsCount as real, r.confidence / 100.0);
    }
    assert TotalWeight(fs) == w;
    assert WeightedTotal(fs) == r.averageSentiment * w;
    DivideBetween(r.averageSentiment * w, w, r.averageSentiment, r.averageSentiment);
  }

  /** The mood record with the corrected score; every other field is the one `MoodOf` reports. */
  function CorrectedMoodOf(results: seq<SentimentResult>): Option<Mood>
  {
    var kept := Filter(HasNews, results);
    if |kept| == 0 then None
    else
      var score := if TotalWeight(MoodFragments(kept)) > 0.0 then WeightedMean(MoodFragments(kept)) else 0.0;
      Some(Mood(score, |kept|, TotalNews(kept), TotalConfidence(kept) / (|kept| as real)))
  }

  /**
   * The corrected record exists exactly when the one as written does, differs
   * from it only in the score, and its score lies between the lowest and
   * highest sentiment of the symbols kept.
   */
  lemma CorrectedMoodAgrees(results: seq<SentimentResult>, lo: real, hi: real)
    requires forall i :: 0 <= i < |results| && results[i].newsCount > 0 ==>
      results[i].confidence > 0.0 && lo <= results[i].averageSentiment <= hi
    ensures CorrectedMoodOf(results).Some? <==> MoodOf(results).Some?
    ensures CorrectedMoodOf(results).Some? ==>
      && Some(CorrectedMoodOf(results).value.marketSentiment) == NormalizedMood(results)
      && lo <= CorrectedMoodOf(results).value.marketSentiment <= hi
      && CorrectedMoodOf(results).value == MoodOf(results).value.(marketSentiment := CorrectedMoodOf(results).value.marketSentiment)
  {
    NormalizedMoodBetween(results, lo, hi);
  }

  /**
   * The mood as written shrinks even a single symbol's score: sentiment
   * 0.5 at confidence 100 from one article comes out as 0.005, where the
   * weighted mean is 0.5.
   */
  lemma MoodAsWrittenShrinks()
    ensures var r := SentimentResult("AAPL", 0.5, Bullish, 100.0, 1, [], PositiveImpact);
      && MoodOf([r]).Some? && MoodOf([r]).value.marketSentiment == 0.005
      && NormalizedMood([r]) == Some(0.5)
  {
    var r := SentimentResult("AAPL", 0.5, Bullish, 100.0, 1, [], PositiveImpact);
    FilterAllPass(HasNews, [r]);
    assert [r][1..] == [];
    NormalizedMoodSingle(r);
  }
}

=== FILE: sorting.dfy ===
/**
 * Python's `sorted(xs, key=..., reverse=True)`: a stable sort into
 * descending key order. Elements whose keys are equal keep their original
 * relative order, which is what makes the "top N" of a sorted list
 * well defined when keys tie.
 */
module Sorting {

  /** A sort key compared lexicographically: `major` first, then `minor`. */
  datatype Key = Key(major: int, minor: real)

  /** `a` sorts strictly before `b` in descending order. */
  predicate Above(a: Key, b: Key)
  {
    a.major > b.major || (a.major == b.major && a.minor > b.minor)
  }

  /** `a` may sort before `b`: `a` is not below `b`. */
  predicate AtLeast(a: Key, b: Key)
  {
    !Above(b, a)
  }

  ghost predicate SortedDesc<T>(s: seq<T>, key: T -> Key)
  {
    forall i, j :: 0 <= i < j < |s| ==> AtLeast(key(s[i]), key(s[j]))
  }

  /** Places `x` after every element whose key is at least `key(x)`. */
  function Insert<T>(x: T, s: seq<T>, key: T -> Key): seq<T>
    decreases |s|
  {
    if |s| == 0 then [x]
    else if Above(key(x), key(s[0])) then [x] + s
    else [s[0]] + Insert(x, s[1..], key)
  }

  /** Insertion sort; the last element is inserted last, so it lands after its equals. */
  function Sort<T>(s: seq<T>, key: T -> Key): seq<T>
    decreases |s|
  {
    if |s| == 0 then []
    else Insert(s[|s| - 1], Sort(s[..|s| - 1], key), key)
  }

  // ---------------------------------------------------------------------
  // Permutation

  lemma {:induction false} InsertPermutes<T>(x: T, s: seq<T>, key: T -> Key)
    ensures multiset(Insert(x, s, key)) == multiset(s) + multiset{x}
    decreases |s|
  {
    if |s| > 0 && !Above(key(x), key(s[0])) {
      InsertPermutes(x, s[1..], key);
      assert s == [s[0]] + s[1..];
    }
  }

  lemma {:induction false} SortPermutes<T>(s: seq<T>, key: T -> Key)
    ensures multiset(Sort(s, key)) == multiset(s)
    decreases |s|
  {
    if |s| > 0 {
      var n := |s| - 1;
      SortPermutes(s[..n], key);
      InsertPermutes(s[n], Sort(s[..n], key), key);
      assert s == s[..n] + [s[n]];
    }
  }

  lemma SortLength<T>(s: seq<T>, key: T -> Key)
    ensures |Sort(s, key)| == |s|
  {
    var r := Sort(s, key);
    SortPermutes(s, key);
    assert |r| == |multiset(r)| == |multiset(s)| == |s|;
  }

  // ---------------------------------------------------------------------
  // Order

  lemma SortedTail<T>(s: seq<T>, key: T -> Key)
    requires |s| > 0 && SortedDesc(s, key)
    ensures SortedDesc(s[1..], key)
  {
    forall i, j | 0 <= i < j < |s| - 1
      ensures AtLeast(key(s[1..][i]), key(s[1..][j]))
    {
      assert s[1..][i] == s[i + 1] && s[1..][j] == s[j + 1];
    }
  }

  lemma SortedCons<T>(x: T, s: seq<T>, key: T -> Key)
    requires SortedDesc(s, key)
    requires forall j :: 0 <= j < |s| ==> AtLeast(key(x), key(s[j]))
    ensures SortedDesc([x] + s, key)
  {
    var r := [x] + s;
    forall i, j | 0 <= i < j < |r|
      ensures AtLeast(key(r[i]), key(r[j]))
    {
      assert r[j] == s[j - 1];
      if i > 0 {
        assert r[i] == s[i - 1];
      }
    }
  }

  lemma {:induction false} InsertSorted<T>(x: T, s: seq<T>, key: T -> Key)
    requires SortedDesc(s, key)
    ensures SortedDesc(Insert(x, s, key), key)
    decreases |s|
  {
    if |s| == 0 {
    } else if Above(key(x), key(s[0])) {
      forall j | 0 <= j < |s|
        ensures AtLeast(key(x), key(s[j]))
      {
        if j > 0 {
          assert AtLeast(key(s[0]), key(s[j]));
        }
      }
      SortedCons(x, s, key);
    } else {
      var tail := Insert(x, s[1..], key);
      SortedTail(s, key);
      InsertSorted(x, s[1..], key);
      InsertPermutes(x, s[1..], key);
      forall j | 0 <= j < |tail|
        ensures AtLeast(key(s[0]), key(tail[j]))
      {
        assert tail[j] in multiset(tail);
        if tail[j] != x {
          assert tail[j] in multiset(s[1..]);
          var i :| 0 <= i < |s| - 1 && s[1..][i] == tail[j];
          assert s[i + 1] == tail[j];
        }
      }
      SortedCons(s[0], tail, key);
    }
  }

  lemma {:induction false} SortSorted<T>(s: seq<T>, key: T -> Key)
    ensures SortedDesc(Sort(s, key), key)
    decreases |s|
  {
    if |s| > 0 {
      SortSorted(s[..|s| - 1], key);
      InsertSorted(s[|s| - 1], Sort(s[..|s| - 1], key), key);
    }
  }

  // ---------------------------------------------------------------------
  // Stability

  /** The elements of `s` whose key is exactly `k`, in their order in `s`. */
  function WithKey<T>(s: seq<T>, key: T -> Key, k: Key): seq<T>
    decreases |s|
  {
    if |s| == 0 then []
    else (if key(s[0]) == k then [s[0]] else []) + WithKey(s[1..], key, k)
  }

  lemma {:induction false} WithKeyAppend<T>(a: seq<T>, b: seq<T>, key: T -> Key, k: Key)
    ensures WithKey(a + b, key, k) == WithKey(a, key, k) + WithKey(b, key, k)
    decreases |a|
  {
    if |a| == 0 {
      assert a + b == b;
    } else {
      assert (a + b)[0] == a[0];
      assert (a + b)[1..] == a[1..] + b;
      WithKeyAppend(a[1..], b, key, k);
    }
  }

  lemma {:induction false} WithKeyNone<T>(s: seq<T>, key: T -> Key, k: Key)
    requires forall j :: 0 <= j < |s| ==> key(s[j]) != k
    ensures WithKey(s, key, k) == []
    decreases |s|
  {
    if |s| > 0 {
      WithKeyNone(s[1..], key, k);
    }
  }

  lemma WithKeySingle<T>(x: T, key: T -> Key, k: Key)
    ensures WithKey([x], key, k) == if key(x) == k then [x] else []
  {
    assert [x][1..] == [];
  }

  lemma {:induction false} InsertStable<T>(x: T, s: seq<T>, key: T -> Key, k: Key)
    requires SortedDesc(s, key)
    ensures WithKey(Insert(x, s, key), key, k)
         == WithKey(s, key, k) + (if key(x) == k then [x] else [])
    decreases |s|
  {
    if |s| == 0 {
      WithKeySingle(x, key, k);
    } else if Above(key(x), key(s[0])) {
      InsertInFront(x, s, key, k);
    } else {
      var rest := Insert(x, s[1..], key);
      SortedTail(s, key);
      InsertStable(x, s[1..], key, k);
      assert Insert(x, s, key) == [s[0]] + rest;
      WithKeyAppend([s[0]], rest, key, k);
      assert s == [s[0]] + s[1..];
      WithKeyAppend([s[0]], s[1..], key, k);
    }
  }

  /** An element above the head goes in front, and no element of `s` shares its key. */
  lemma InsertInFront<T>(x: T, s: seq<T>, key: T -> Key, k: Key)
    requires SortedDesc(s, key) && |s| > 0 && Above(key(x), key(s[0]))
    ensures WithKey(Insert(x, s, key), key, k)
         == WithKey(s, key, k) + (if key(x) == k then [x] else [])
  {
    assert Insert(x, s, key) == [x] + s;
    WithKeyAppend([x], s, key, k);
    WithKeySingle(x, key, k);
    if key(x) == k {
      forall j | 0 <= j < |s|
        ensures key(s[j]) != k
      {
        if j > 0 {
          assert AtLeast(key(s[0]), key(s[j]));
        }
      }
      WithKeyNone(s, key, k);
    }
  }

  /**
   * Stability: among elements with equal keys the sorted order is the
   * original order.
   */
  lemma {:induction false} SortStable<T>(s: seq<T>, key: T -> Key, k: Key)
    ensures WithKey(Sort(s, key), key, k) == WithKey(s, key, k)
    decreases |s|
  {
    if |s| > 0 {
      var n := |s| - 1;
      var front := Sort(s[..n], key);
      SortSorted(s[..n], key);
      SortStable(s[..n], key, k);
      InsertStable(s[n], front, key, k);
      WithKeySingle(s[n], key, k);
      WithKeyAppend(s[..n], [s[n]], key, k);
      assert s[..n] + [s[n]] == s;
    }
  }

  // ---------------------------------------------------------------------
  // Top of the order

  /**
   * In a descending sequence, the first `m` elements are themselves in
   * order, and each is at least every element after them.
   */
  lemma PrefixAbove<T>(sorted: seq<T>, key: T -> Key, m: nat)
    requires SortedDesc(sorted, key) && m <= |sorted|
    ensures SortedDesc(sorted[..m], key)
    ensures forall x, i :: x in multiset(sorted[m..]) && 0 <= i < m ==> AtLeast(key(sorted[i]), key(x))
  {
    var top := sorted[..m];
    forall i, j | 0 <= i < j < |top|
      ensures AtLeast(key(top[i]), key(top[j]))
    {
      assert top[i] == sorted[i] && top[j] == sorted[j];
    }
    var rest := sorted[m..];
    forall x, i | x in multiset(rest) && 0 <= i < m
      ensures AtLeast(key(sorted[i]), key(x))
    {
      var j :| 0 <= j < |rest| && rest[j] == x;
      assert x == sorted[m + j];
    }
  }

  /** What the first `m` elements leave out of `s` is the rest of the sequence. */
  lemma PrefixRest<T>(s: seq<T>, m: nat)
    requires m <= |s|
    ensures multiset(s[..m]) <= multiset(s)
    ensures multiset(s) - multiset(s[..m]) == multiset(s[m..])
  {
    assert s == s[..m] + s[m..];
  }

  /**
   * The first `m` elements of the sorted list, on their own: drawn from
   * `s`, in descending key order, and no element left out ranks above
   * one kept.
   */
  lemma TopSelection<T>(s: seq<T>, key: T -> Key, m: nat)
    requires m <= |s|
    ensures |Sort(s, key)| == |s|
    ensures multiset(Sort(s, key)[..m]) <= multiset(s)
    ensures SortedDesc(Sort(s, key)[..m], key)
    ensures forall x, i :: x in multiset(s) - multiset(Sort(s, key)[..m]) && 0 <= i < m ==>
      AtLeast(key(Sort(s, key)[..m][i]), key(x))
  {
    var sorted := Sort(s, key);
    SortLength(s, key);
    SortPermutes(s, key);
    SortSorted(s, key);
    PrefixRest(sorted, m);
    PrefixAbove(sorted, key, m);
    forall x, i | x in multiset(s) - multiset(sorted[..m]) && 0 <= i < m
      ensures AtLeast(key(sorted[..m][i]), key(x))
    {
      assert x in multiset(sorted[m..]);
      assert sorted[..m][i] == sorted[i];
    }
  }
}

=== FILE: text.dfy ===
/**
 * The handful of Python string operations the scoring code relies on:
 * `lower()`, the `in` substring test, `split(c)`, `sep.join(parts)` and
 * `strip()`, plus counting how many phrases of a list occur in a text.
 */
module Text {

  /** Python's `str.lower()` on one character, for the ASCII letters. */
  function LowerChar(c: char): (r: char)
    ensures !('A' <= r <= 'Z')
    ensures 'a' <= c <= 'z' ==> r == c
  {
    if 'A' <= c <= 'Z' then (c as int + 32) as char else c
  }

  function Lower(s: string): (r: string)
    ensures |r| == |s|
    ensures forall i :: 0 <= i < |r| ==> !('A' <= r[i] <= 'Z')
  {
    seq(|s|, i requires 0 <= i < |s| => LowerChar(s[i]))
  }

  // ---------------------------------------------------------------------
  // Substring test

  /** Python's `needle in text`. */
  predicate Contains(text: string, needle: string)
    decreases |text|
  {
    if |needle| > |text| then false
    else if text[..|needle|] == needle then true
    else |text| > 0 && Contains(text[1..], needle)
  }

  /** `needle` occurs in `text` starting at position `i`. */
  ghost predicate OccursAt(text: string, needle: string, i: int)
  {
    0 <= i && i + |needle| <= |text| && text[i..i + |needle|] == needle
  }

  lemma TailSlice(text: string, a: int, b: int)
    requires 0 <= a <= b < |text|
    ensures text[1..][a..b] == text[a + 1..b + 1]
  {
  }

  /** The scanning test agrees with the positional definition of "occurs somewhere". */
  lemma {:induction false} ContainsIff(text: string, needle: string)
    ensures Contains(text, needle) <==> exists i :: OccursAt(text, needle, i)
    decreases |text|
  {
    if |needle| > |text| {
      forall i | OccursAt(text, needle, i) ensures false { }
    } else if text[..|needle|] == needle {
      assert OccursAt(text, needle, 0);
    } else {
      ContainsIff(text[1..], needle);
      if Contains(text[1..], needle) {
        var i :| OccursAt(text[1..], needle, i);
        TailSlice(text, i, i + |needle|);
        assert OccursAt(text, needle, i + 1);
      } else {
        forall i | OccursAt(text, needle, i) ensures false {
          if i > 0 {
            TailSlice(text, i - 1, i - 1 + |needle|);
            assert OccursAt(text[1..], needle, i - 1);
          }
        }
      }
    }
  }

  // ---------------------------------------------------------------------
  // split and join

  /** Python's `sep.join(parts)`. */
  function Join(sep: string, parts: seq<string>): string
    decreases |parts|
  {
    if |parts| == 0 then ""
    else if |parts| == 1 then parts[0]
    else parts[0] + sep + Join(sep, parts[1..])
  }

  /** Position of the first `c` in `s`. */
  function IndexOf(s: string, c: char): (i: nat)
    requires c in s
    ensures i < |s| && s[i] == c && c !in s[..i]
  {
    if s[0] == c then 0 else 1 + IndexOf(s[1..], c)
  }

  /**
   * Python's `s.split(c)` for a one-character separator: the pieces between
   * consecutive separators, empty pieces included, never an empty list.
   */
  function Split(s: string, c: char): (parts: seq<string>)
    ensures |parts| >= 1
    ensures forall k :: 0 <= k < |parts| ==> c !in parts[k]
    ensures Join([c], parts) == s
    decreases |s|
  {
    if c !in s then [s]
    else
      var i := IndexOf(s, c);
      var rest := Split(s[i + 1..], c);
      assert ([s[..i]] + rest)[1..] == rest;
      assert s == s[..i] + [c] + s[i + 1..];
      [s[..i]] + rest
  }

  /** Splitting a join of separator-free pieces gives the pieces back. */
  lemma {:induction false} SplitJoin(parts: seq<string>, c: char)
    requires |parts| >= 1
    requires forall k :: 0 <= k < |parts| ==> c !in parts[k]
    ensures Split(Join([c], parts), c) == parts
    decreases |parts|
  {
    if |parts| > 1 {
      var tail := Join([c], parts[1..]);
      assert Join([c], parts) == parts[0] + [c] + tail;
      SplitAfterPiece(parts[0], c, tail);
      SplitJoin(parts[1..], c);
      assert parts == [parts[0]] + parts[1..];
    }
  }

  /** Splitting `p + [c] + t`, with `c` not in `p`, gives `p` and then the pieces of `t`. */
  lemma SplitAfterPiece(p: string, c: char, t: string)
    requires c !in p
    ensures Split(p + [c] + t, c) == [p] + Split(t, c)
  {
    var s := p + [c] + t;
    assert s[|p|] == c;
    var i := IndexOf(s, c);
    assert i == |p|;
    assert s[..i] == p;
    assert s[i + 1..] == t;
  }

  // ---------------------------------------------------------------------
  // strip

  /** Python's `str.isspace()` on one character. */
  predicate IsSpace(ch: char)
  {
    var n := ch as int;
    || (9 <= n <= 13) || (28 <= n <= 32) || n == 0x85 || n == 0xA0 || n == 0x1680
    || (0x2000 <= n <= 0x200A) || n == 0x2028 || n == 0x2029 || n == 0x202F
    || n == 0x205F || n == 0x3000
  }

  /** The end of the whitespace run of `s` that starts at `i`. */
  function SkipSpaces(s: string, i: nat): (n: nat)
    requires i <= |s|
    ensures i <= n <= |s|
    ensures forall k :: i <= k < n ==> IsSpace(s[k])
    ensures n < |s| ==> !IsSpace(s[n])
    decreases |s| - i
  {
    if i < |s| && IsSpace(s[i]) then SkipSpaces(s, i + 1) else i
  }

  /** The start of the whitespace run of `s[lo..j]` that ends at `j`. */
  function BackSpaces(s: string, lo: nat, j: nat): (n: nat)
    requires lo <= j <= |s|
    ensures lo <= n <= j
    ensures forall k :: n <= k < j ==> IsSpace(s[k])
    ensures n > lo ==> !IsSpace(s[n - 1])
    decreases j
  {
    if j > lo && IsSpace(s[j - 1]) then BackSpaces(s, lo, j - 1) else j
  }

  /** `r` is `s[i..]` cut short, with only whitespace of `s` left out on either side. */
  ghost predicate StrippedAt(s: string, r: string, i: int)
  {
    && 0 <= i && i + |r| <= |s| && r == s[i..i + |r|]
    && (forall k :: 0 <= k < i ==> IsSpace(s[k]))
    && (forall k :: i + |r| <= k < |s| ==> IsSpace(s[k]))
  }

  /**
   * Python's `s.strip()`: the middle of `s` once the whitespace runs at both
   * ends are removed. What is left is a slice of `s` with only whitespace
   * cut away, and it neither starts nor ends with whitespace.
   */
  function Strip(s: string): (r: string)
    ensures StrippedAt(s, r, SkipSpaces(s, 0))
    ensures |r| > 0 ==> !IsSpace(r[0]) && !IsSpace(r[|r| - 1])
  {
    var a := SkipSpaces(s, 0);
    s[a..BackSpaces(s, a, |s|)]
  }

  /** Stripping twice is stripping once. */
  lemma StripIdempotent(s: string)
    ensures Strip(Strip(s)) == Strip(s)
  {
    var r := Strip(s);
    var a := SkipSpaces(r, 0);
    assert a == 0;
    assert BackSpaces(r, 0, |r|) == |r|;
    assert r[0..|r|] == r;
  }

  // ---------------------------------------------------------------------
  // phrase counting

  /**
   * How many entries of `phrases` occur in `text` once lower-cased, each
   * entry counted at most once: the `sum(1 for p in phrases if p.lower() in text)`
   * idiom of the analysers.
   */
  function CountMatches(phrases: seq<string>, text: string): (n: nat)
    ensures n <= |phrases|
  {
    if |phrases| == 0 then 0
    else
      CountMatches(phrases[..|phrases| - 1], text)
      + (if Contains(text, Lower(phrases[|phrases| - 1])) then 1 else 0)
  }

  /** Positions of the list entries that occur in `text`. */
  ghost function MatchedEntries(phrases: seq<string>, text: string): set<int>
  {
    set i | 0 <= i < |phrases| && Contains(text, Lower(phrases[i]))
  }

  lemma {:induction false} CountMatchesIsCardinality(phrases: seq<string>, text: string)
    ensures CountMatches(phrases, text) == |MatchedEntries(phrases, text)|
    decreases |phrases|
  {
    if |phrases| > 0 {
      var n := |phrases| - 1;
      var front := phrases[..n];
      CountMatchesIsCardinality(front, text);
      assert forall i :: 0 <= i < n ==> front[i] == phrases[i];
      if Contains(text, Lower(phrases[n])) {
        assert MatchedEntries(phrases, text) == MatchedEntries(front, text) + {n};
      } else {
        assert MatchedEntries(phrases, text) == MatchedEntries(front, text);
      }
    }
  }
}

=== FILE: wrappers.dfy ===
/** Optional values, standing in for Python's `None`-or-value returns. */
module Wrappers {

  datatype Option<+T> = None | Some(value: T) {

    /** The wrapped value, or `default` when there is none. */
    function GetOr(default: T): T {
      match this
      case Some(v) => v
      case None => default
    }
  }
}
